=== FILE: README.md ===
# GeoTimeTracker work-hours engine in Dafny

GeoTimeTracker turns location-history fixes into a monthly table of work
hours. It works in five steps:

1. It keeps the fixes of one month.
2. It finds the periods spent within a radius of a workplace. These are the
   "clusters": runs of in-radius fixes, closed by the next out-of-radius fix
   and kept when they last long enough.
3. It rounds both ends of each period to the nearest five minutes and keys
   the period by the date of its rounded entry.
4. It writes one row per day in ascending date order. Each row holds the
   worked time, the day's starred calendar events, and the shifted From and
   To clocks.
5. It closes the table with a summary row whose total is recomputed from the
   From and To clocks.

The English script (`GeoTimeTracker_eng.py`) and the Polish script
(`GeoTimeTracker.py`) are the same engine. Their engine functions differ
only in comments, column names and the summary label ("Total" or "Suma").
The scripts also differ in their defaults (the calendar file name and the
workplace coordinates) and in the language of three `print` messages; none
of these is modelled. The model is shared, and a `Language` value selects
the label.

Time is modelled as integer microseconds since 1970-01-01T00:00. The epoch is
a midnight, so the calendar day of an instant is `t / DAY` and its time of
day is `t % DAY`. Dafny's division is Euclidean, which for a positive divisor
is the floor division Python's datetime arithmetic performs.

Modules, one per file:

- `Instants` (`instants.dfy`): time units, the `datetime` fields of an
  instant, `apply_time_offset`, the wall-clock reading of an instant, and the
  proleptic Gregorian date of a day number.
- `Rounding` (`rounding.dfy`): `round_to_nearest_5_minutes`.
- `ClusterDetector` (`cluster_detector.dfy`): `detect_clusters`.
  - The specification is a left fold over a two-state machine: Idle, or
    Open(first, last in-radius time).
  - The imperative method keeps the source's own state: the member list,
    the last in-radius time, and the `timedelta.seconds` gap rule.
  - The method is proved to return exactly what the fold returns. So the
    gap rule, which only decides which fixes join the member list, never
    changes the output.
- `CalendarIndex` (`calendar_index.dfy`): the filter and group loop of
  `load_events_from_ics`.
- `DayAggregator` (`day_aggregator.dfy`): the grouping loop, the row loop,
  and the summary row of `analyze_location_and_calendar`.
- `WorkLog` (`work_log.dfy`): `filter_csv` and the composed pipeline from
  parsed fixes and events to the rows written out.
- `Wrappers` (`wrappers.dfy`): `Option`.

Where the code's comments and its behaviour disagree, the model follows the code:

- **Sorting.** The code never sorts the fixes: `detect_clusters` sees them
  in file order, and time-order results are proved under an explicit
  `Sorted` hypothesis.
- **Exit overwrite.** The grouping loop's comment says the exit is updated
  "if it's later in the day". The code overwrites it unconditionally, and so
  does the model (`SecondIntervalOverwritesExit`). `OverwriteKeepsLatestExit`
  shows the overwrite still keeps the latest exit when the intervals are in
  time order.
- **Summary total across midnight.** The total is recomputed from the
  wall-clock From and To texts. A day whose shifted entry and exit fall on
  different dates therefore contributes its wall-clock difference: the true
  span minus a whole number of days. For a span shorter than a day that
  crosses midnight this is negative; a longer span is under-counted (entry
  08:00, exit 09:00 the next day counts 01:00). The model keeps this
  behaviour: `MidnightCrossingSkewsTotal` exhibits it, and
  `TotalIsSumOfRows` proves the total is exact when no row crosses midnight.

## Model

Rows cite the English script except where the Polish script is the point.
The Polish script has the same code one line earlier up to line 127
(`round_to_nearest_5_minutes` at GeoTimeTracker.py:74-79, `detect_clusters`
at 82-100, the event loop at 115-119). Its grouping loop is at 164-173, the
row loop at 175-194, the total at 196-203, and the summary row with label
"Suma" at 205-212. Every member below models both scripts.

| member | source | states |
|---|---|---|
| Instants.DayOf | GeoTimeTracker_eng.py:169 | `.date()`: the day number d of an instant is the one with d * DAY <= t < (d + 1) * DAY |
| Instants.HourOf | GeoTimeTracker_eng.py:119 | `.hour` (the `%H` field) is in [0, 24) |
| Instants.MinuteOf | GeoTimeTracker_eng.py:76 | `.minute` is in [0, 60) |
| Instants.SecondOf | GeoTimeTracker_eng.py:76 | `.second` is in [0, 60) |
| Instants.MicrosecondOf | GeoTimeTracker_eng.py:76 | `.microsecond` is in [0, 1000000) |
| Instants.TimeOfDayFields | GeoTimeTracker_eng.py:76 | hour, minute, second and microsecond together give exactly the time elapsed since midnight |
| Instants.WallClock | GeoTimeTracker_eng.py:197-198 | the `%H:%M:%S` reading of an instant, as seconds since midnight, is its hour times 3600 plus its minute times 60 plus its second, and lies in [0, 86400) |
| Instants.ApplyOffset | GeoTimeTracker_eng.py:125-126 | shifting by whole hours moves the hour of day round the clock by that many hours and keeps the minute, second and microsecond |
| Instants.OffsetMovesHour | GeoTimeTracker_eng.py:125-126 | adding whole hours to an instant keeps its remainders modulo an hour, a minute and a second, and advances its hour of day modulo 24 |
| Instants.CivilDate | GeoTimeTracker_eng.py:107 | the date of any day number has a month in 1..12 and a day in 1..31 |
| Instants.DayOfEraBounds | GeoTimeTracker_eng.py:107 | inside a 400-year era the year of the era is in [0, 400) and the March-based day of the year in [0, 365] |
| Instants.InMonth | GeoTimeTracker_eng.py:107 | an instant can only be in a month numbered 1 to 12, so a filter month outside that range keeps nothing |
| Instants.OffsetPreservesSpans | GeoTimeTracker_eng.py:125-126 | shifting both ends of a span by the same whole-hour offset leaves its length unchanged, and shifting back undoes the shift |
| Instants.WallClockDifference | GeoTimeTracker_eng.py:205-207 | for two whole-second instants on the same date, `strptime(To) - strptime(From)` equals the true difference between them |
| Instants.EpochIsNewYear | GeoTimeTracker_eng.py:107 | the date conversion used for the year and month filter puts day 0 on 1 January 1970 |
| Instants.LeapDayOf2024 | GeoTimeTracker_eng.py:107 | the date conversion gives 29 February 2024 for day 19782, so leap days are handled |
| Rounding.Discard | GeoTimeTracker_eng.py:76 | `discard` is less than five minutes and never negative |
| Rounding.DiscardIsRemainder | GeoTimeTracker_eng.py:76 | the discarded part (`minute % 5` minutes plus seconds plus microseconds) is exactly the instant modulo five minutes |
| Rounding.GridMeansWholeFiveMinutes | GeoTimeTracker_eng.py:76-77 | an instant is on the five-minute grid exactly when its minute is divisible by 5 and its seconds and microseconds are zero |
| Rounding.RoundToFiveMinutes | GeoTimeTracker_eng.py:75-80 | the result is on the grid, lies in (t - 2:30, t + 2:30], and is later than t exactly when the remainder is at least 2:30 |
| Rounding.RoundingIsUnique | GeoTimeTracker_eng.py:75-80 | any grid point in (t - 2:30, t + 2:30] is the rounded instant, so the window characterises the result |
| Rounding.RoundingIsIdempotent | GeoTimeTracker_eng.py:75-80 | instants already on the grid are unchanged, and rounding twice equals rounding once |
| Rounding.RoundingBoundary | GeoTimeTracker_eng.py:78-79 | exactly 2:30 past a grid point rounds up to the next point; 2:29 past it rounds down |
| Rounding.RoundingIsMonotone | GeoTimeTracker_eng.py:75-80 | rounding never reverses the order of two instants |
| Rounding.RoundingCommutesWithOffset | GeoTimeTracker_eng.py:125-126 | rounding then shifting by whole hours equals shifting then rounding, and a shifted rounded instant stays on the grid |
| Rounding.GridIsWholeSeconds | GeoTimeTracker_eng.py:179-180 | a rounded instant shifted by whole hours has no sub-second part |
| Rounding.GridSpanInMinutes | GeoTimeTracker_eng.py:182 | two grid points lie a whole multiple of five minutes apart |
| ClusterDetector.WithinIgnoresTimeAndAccuracy | GeoTimeTracker_eng.py:89 | two fixes with the same latitude and longitude get the same radius answer, whatever their time or accuracy |
| ClusterDetector.GapSeconds | GeoTimeTracker_eng.py:92 | `timedelta.seconds` of a difference lies in [0, 86400) and, for a difference between 0 and one day, is its floor in whole seconds |
| ClusterDetector.DetectClusters | GeoTimeTracker_eng.py:83-101 | the loop with the member list, last in-radius time and gap rule returns exactly the Idle/Open fold's intervals, so the gap rule never affects the output |
| ClusterDetector.Step | GeoTimeTracker_eng.py:88-100 | after one fix no cluster is open exactly when the fix is outside; the intervals only grow, by exactly the open cluster's (first, last in-radius) when an outside fix closes one lasting at least the minimum |
| ClusterDetector.Scan | GeoTimeTracker_eng.py:88-100 | after a prefix, twice the number of emitted intervals plus one for an open cluster is at most the number of fixes, and every emitted interval lasts at least the minimum |
| ClusterDetector.Clusters | GeoTimeTracker_eng.py:83-101 | `detect_clusters` returns at most half as many intervals as fixes, each lasting at least the minimum |
| ClusterDetector.ClusterMeaning | GeoTimeTracker_eng.py:88-100 | after any prefix no cluster is open exactly when the prefix is empty or ends outside, and an open cluster spans the trailing run of in-radius fixes |
| ClusterDetector.FoundAreClosedRuns | GeoTimeTracker_eng.py:95-99 | every interval emitted after any prefix is a run of in-radius fixes closed by an outside fix, lasting at least the minimum |
| ClusterDetector.FoundOnlyGrows | GeoTimeTracker_eng.py:97-99 | the intervals emitted after a prefix are a prefix of those emitted after the whole input |
| ClusterDetector.OpenDuringRun | GeoTimeTracker_eng.py:88-93 | during a run of in-radius fixes that follows an outside fix, the open cluster runs from the run's first fix to its latest |
| ClusterDetector.ClosedRunsAreEmitted | GeoTimeTracker_eng.py:95-99 | conversely, every run of in-radius fixes that an outside fix closes and that lasts at least the minimum is emitted |
| ClusterDetector.ScanMeaning | GeoTimeTracker_eng.py:88-100 | after any prefix, no cluster is open exactly when the input is empty or its last fix is outside; an open cluster is the trailing run of in-radius fixes; every emitted interval is a closed run lasting at least the minimum |
| ClusterDetector.EmittedIntervalsAreClosedRuns | GeoTimeTracker_eng.py:88-99 | every emitted (s, e) has e - s at least the minimum; s and e are the times of the first and last fix of a run of in-radius fixes that an outside fix follows; on sorted input s <= e |
| ClusterDetector.ClustersAreChronological | GeoTimeTracker_eng.py:88-101 | on time-sorted input the emitted intervals are each well formed and come one after another without overlap |
| ClusterDetector.OpenClusterAtEndIsDropped | GeoTimeTracker_eng.py:95-101 | appending any number of in-radius fixes never emits an interval: a cluster still open at the end is discarded |
| ClusterDetector.OutsideWithoutClusterChangesNothing | GeoTimeTracker_eng.py:95-96 | an out-of-radius fix when no cluster is open leaves the whole state unchanged |
| ClusterDetector.OnlyOutsideFixesClose | GeoTimeTracker_eng.py:95-100 | if one more fix changes the emitted intervals, that fix is out of radius and the fix before it was in radius |
| ClusterDetector.ThirtyMinuteVisit | GeoTimeTracker_eng.py:88-101 | with the default minimum of half a minute, in-radius fixes at 10:00 and 10:30 followed by an outside fix at 10:32 give the single interval 10:00-10:30 |
| CalendarIndex.TwoDigits | GeoTimeTracker_eng.py:119 | the zero-padded `%H`/`%M` field of n is two decimal digit characters whose values read back as n |
| CalendarIndex.ClockText | GeoTimeTracker_eng.py:119 | `strftime('%H:%M')` is five characters: two decimal digits, ':' and two decimal digits |
| CalendarIndex.ClockTextRoundTrip | GeoTimeTracker_eng.py:119 | the "HH:MM" text reads back as the hour and minute of the instant |
| CalendarIndex.Selected | GeoTimeTracker_eng.py:118 | a selected event has a non-empty name (it contains '*') and the filter month is in 1..12 |
| CalendarIndex.Describe | GeoTimeTracker_eng.py:119 | a description starts with the event's name, ends with ')', and is 16 characters longer than the name when the event has an end, 11 otherwise |
| CalendarIndex.DescriptionRoundTrip | GeoTimeTracker_eng.py:119 | a description is the name, " (", the start clock, " - ", the end clock or nothing when the event has no end, and ")", and each clock reads back |
| CalendarIndex.JoinLines | GeoTimeTracker_eng.py:191 | joining no parts gives "", one part gives that part, and a result without a newline came from at most one part |
| CalendarIndex.EventIndex | GeoTimeTracker_eng.py:114-120 | `events_by_day` after the loop: a day is a key exactly when it has at least one description, so no key holds an empty list |
| CalendarIndex.AddEvent | GeoTimeTracker_eng.py:118-120 | one pass adds the start day of a selected event to the keys and appends its description to that day's `get` value; every other day, and every day for an unselected event, is unchanged |
| CalendarIndex.Lookup | GeoTimeTracker_eng.py:191 | `get(day, [])` is the day's list when the day is a key and the empty list otherwise |
| CalendarIndex.IndexedIffSomeEvent | GeoTimeTracker_eng.py:116-120 | a day has descriptions exactly when some selected event (in the month, name containing '*') starts on it |
| CalendarIndex.SelectedDaysStep | GeoTimeTracker_eng.py:118-120 | one more event adds its start date to the keyed days exactly when it is selected |
| CalendarIndex.IndexStep | GeoTimeTracker_eng.py:116-120 | the index of the events plus one more is the old index with the new event's description appended to its start date's list when it is selected |
| CalendarIndex.LoadEvents | GeoTimeTracker_eng.py:110-122 | the loop builds the index of the selected events, and `get(day, [])` is that day's descriptions in encounter order |
| CalendarIndex.IndexLookup | GeoTimeTracker_eng.py:191 | `events_by_day.get(day, [])` is the descriptions of the selected events starting on that day, in encounter order |
| CalendarIndex.IndexHoldsOnlySelectedEvents | GeoTimeTracker_eng.py:118-120 | every description under a day comes from a selected event starting that day, and a day without one joins to "" |
| DayAggregator.EntryDay | GeoTimeTracker_eng.py:167-169 | the key of an interval is the next date when its entry is at 23:57:30 or later, and the entry's own date otherwise |
| DayAggregator.RoundingNearMidnight | GeoTimeTracker_eng.py:167-169 | the rounded instant falls on the next date exactly when the instant is at 23:57:30 or later, and on the same date otherwise |
| DayAggregator.DayTable | GeoTimeTracker_eng.py:165-174 | `entry_exit_by_day` after the loop has exactly the intervals' key days as keys, and each day's kept entry falls on that day |
| DayAggregator.FirstOn | GeoTimeTracker_eng.py:171-172 | the interval that inserts a day is the first one whose rounded entry falls on it |
| DayAggregator.LastOn | GeoTimeTracker_eng.py:173-174 | the interval whose exit a day keeps is the last one whose rounded entry falls on it |
| DayAggregator.Record | GeoTimeTracker_eng.py:171-174 | one interval adds its rounded entry date to the keys and sets that day's exit to its rounded exit; a new day takes its rounded entry, a known day keeps its entry, other days are unchanged |
| DayAggregator.DayTableStep | GeoTimeTracker_eng.py:166-174 | the table of the intervals plus one more is that interval recorded into the table: inserted on a new day, exit overwritten on a known day |
| DayAggregator.GroupByDay | GeoTimeTracker_eng.py:165-174 | the loop keys each day of a rounded, pre-offset entry date to the rounded entry of its first interval and the rounded exit of its last |
| DayAggregator.OverwriteKeepsLatestExit | GeoTimeTracker_eng.py:171-174 | on intervals in time order, a day's kept entry is the earliest rounded entry, its kept exit the latest rounded exit, and entry <= exit |
| DayAggregator.KeptEntryBeforeKeptExit | GeoTimeTracker_eng.py:171-174 | on intervals in time order every keyed day has entry <= exit |
| DayAggregator.DayTableOnGrid | GeoTimeTracker_eng.py:167-168 | every entry and exit kept in the table is on the five-minute grid |
| DayAggregator.SecondIntervalOverwritesExit | GeoTimeTracker_eng.py:173-174 | 09:00-09:30 then 13:00-13:45 on one day keep entry 09:00 and exit 13:45 |
| DayAggregator.MorningTable | GeoTimeTracker_eng.py:171-172 | a single interval 09:00-09:30 inserts day 0 with entry 09:00 and exit 09:30 |
| DayAggregator.Smallest | GeoTimeTracker_eng.py:178 | the least day of a non-empty set of days is in the set and at most every member |
| DayAggregator.SortedDays | GeoTimeTracker_eng.py:178 | `sorted(...)` gives exactly the keyed days, each once, in strictly ascending order |
| DayAggregator.AscendingOrderIsUnique | GeoTimeTracker_eng.py:178 | two strictly ascending sequences with the same members are equal, so the sorted order is determined by the keys |
| DayAggregator.WorkedTime | GeoTimeTracker_eng.py:182-185 | hours and minutes are floor-divided: minutes in [0, 60), hours non-negative for a non-negative span, and the span lies within that minute |
| DayAggregator.WorkedTimeIsExact | GeoTimeTracker_eng.py:182-185 | a whole number of minutes formats back to exactly that number of minutes |
| DayAggregator.DayRow | GeoTimeTracker_eng.py:179-199 | a day row carries its date, that day's descriptions joined by newlines, the worked time of the unshifted exit minus entry whatever the offset, and as From and To the `%H:%M:%S` clocks of entry and exit with the hour moved round the clock by the offset and minutes and seconds kept |
| DayAggregator.DayRows | GeoTimeTracker_eng.py:177-199 | `entry_exit_pairs` has exactly one row per day it is built from |
| DayAggregator.DayRowsAt | GeoTimeTracker_eng.py:177-199 | the k-th row built from a list of days is the row of the k-th day |
| DayAggregator.BuildRows | GeoTimeTracker_eng.py:177-199 | the loop appends one row per day of the table, in ascending date order |
| DayAggregator.RowsFollowSortedDays | GeoTimeTracker_eng.py:177-199 | there are as many rows as keyed days, each dated on a keyed day, in strictly ascending date order, with every keyed day present |
| DayAggregator.RowWorkedTimes | GeoTimeTracker_eng.py:179-198 | every day row has From and To filled and a Work Duration of the rounded exit minus the rounded entry |
| DayAggregator.RowEvents | GeoTimeTracker_eng.py:191 | every day row is dated on its day and carries that day's descriptions joined by newlines |
| DayAggregator.RowClockSpan | GeoTimeTracker_eng.py:205-208 | a row contributes To - From when both are filled and nothing when either is empty, as the `if row['From'] and row['To']` filter decides |
| DayAggregator.ClockSpan | GeoTimeTracker_eng.py:205-208 | the summed clock differences are zero when no row has both From and To filled |
| DayAggregator.ClockSpanSumsRows | GeoTimeTracker_eng.py:205-208 | when every row's clock difference equals its worked time, the summed clock differences equal the summed worked minutes |
| DayAggregator.RowClockAgrees | GeoTimeTracker_eng.py:179-207 | a day row of grid-aligned times whose shifted entry and exit share a date has To - From equal to its Work Duration |
| DayAggregator.TotalIsSumOfRows | GeoTimeTracker_eng.py:205-211 | when no shifted row crosses midnight, the summary total equals the sum of the rows' worked minutes |
| DayAggregator.RowsComeFromIntervals | GeoTimeTracker_eng.py:166-178 | every row is dated on the rounded entry date of some interval |
| DayAggregator.IntervalDaysHaveRows | GeoTimeTracker_eng.py:166-178 | the rounded entry date of every interval has a row |
| DayAggregator.ChronologicalWorkNonNegative | GeoTimeTracker_eng.py:182-185 | on intervals in time order no row has negative hours or minutes |
| DayAggregator.OffsetOnlyMovesClocks | GeoTimeTracker_eng.py:179-198 | two offsets give rows with the same Date, Event and Work Duration; only From and To differ |
| DayAggregator.TotalWorked | GeoTimeTracker_eng.py:205-211 | the total has minutes in [0, 60) and is the summed wall-clock differences of the rows floored to whole minutes |
| DayAggregator.SummaryRow | GeoTimeTracker_eng.py:214-220 | the summary row is labelled "Total" in English and "Suma" in Polish, has empty Event, From and To, and carries the total of the rows |
| DayAggregator.EmptyTotalIsZero | GeoTimeTracker_eng.py:205-211 | with no day rows the total is 00:00 |
| DayAggregator.MidnightCrossingSkewsTotal | GeoTimeTracker_eng.py:205-211 | a 21:00-22:30 day shown with a two-hour offset has a 01:30 row but a -23:30 total, because its To (00:30) is before its From (23:00) |
| DayAggregator.LateRowWrapsAround | GeoTimeTracker_eng.py:179-198 | that 21:00-22:30 day shifted by two hours gives the row 01:30 worked, From 23:00, To 00:30, with an empty Event |
| WorkLog.MonthFixes | GeoTimeTracker_eng.py:104-107 | the filter keeps at most the input fixes and only fixes of the input |
| WorkLog.MonthFixesSelects | GeoTimeTracker_eng.py:107 | a fix survives exactly when it is an input fix dated in the target year and month |
| WorkLog.MonthFixesStaySorted | GeoTimeTracker_eng.py:107 | the filter keeps input order, so sorted fixes stay sorted |
| WorkLog.NothingDatedInMonth | GeoTimeTracker_eng.py:107 | with no fix dated in the month the filter keeps nothing |
| WorkLog.MonthClusters | GeoTimeTracker_eng.py:156-159 | the month's presence intervals are at most half as many as the input fixes, each lasts at least the minimum, and both its ends are dated in the target month |
| WorkLog.ClustersStayInMonth | GeoTimeTracker_eng.py:156-159 | both ends of every detected interval are times of fixes that passed the month filter |
| WorkLog.DayRowsOf | GeoTimeTracker_eng.py:165-199 | the day rows are one per key day of the intervals, each dated on such a day, in strictly ascending date order |
| WorkLog.DayRowsFilled | GeoTimeTracker_eng.py:179-199 | every day row is dated on a day and has both From and To filled |
| WorkLog.AppendSummary | GeoTimeTracker_eng.py:214-221 | filled day rows followed by their summary row form a table whose last row is the summary of exactly the rows before it |
| WorkLog.Report | GeoTimeTracker_eng.py:156-221 | the table is never empty; its last row is the summary of exactly the rows before it, and every earlier row is a day row with From and To filled |
| WorkLog.AnalyzeLocationAndCalendar | GeoTimeTracker_eng.py:156-221 | the pipeline writes the day rows of the month's clusters with their events, followed by the summary row |
| WorkLog.EventsOfTheDay | GeoTimeTracker_eng.py:191 | each row's Event cell is that day's starred events of the month, in calendar order, one per line |
| WorkLog.LanguagesDifferOnlyInLabel | GeoTimeTracker.py:205-212 | the English and Polish tables have the same rows except that the last row is labelled "Total" in one and "Suma" in the other |
| WorkLog.SummariesDifferOnlyInLabel | GeoTimeTracker.py:205-212 | for any day rows, the English and Polish tables built from them differ only in the summary row's label |
| WorkLog.EmptyMonthReport | GeoTimeTracker_eng.py:166-221 | a month without a presence interval (no fix of the month in the radius, or only stays shorter than the minimum) gives a table holding only a summary row with total 00:00 and empty Event, From and To |
| WorkLog.NoFixInMonthReport | GeoTimeTracker_eng.py:107 | in particular, a month without a single fix gives only that zero summary row |
| WorkLog.SortedFixesGiveChronologicalClusters | GeoTimeTracker_eng.py:156-159 | on time-sorted fixes the month's clusters are in time order |

## Left out

- `convert_json_to_csv` is not modelled. It is file I/O, JSON parsing, and float division of the E7 coordinates.
- The great-circle distance test is not modelled. `great_circle` is a geopy call on floating-point values, so `is_within_radius` is the parameter `inRadius` over a fix's latitude and longitude.
- pandas plumbing is not modelled: `read_csv`, combining Date and Time, `to_datetime(errors='coerce')`, `to_numeric`, `dropna`, `DataFrame`, `concat` and `to_csv`. Fixes arrive already parsed, with a valid time and coordinates.
- `filter_csv` compares the year and month of the Date column. The model compares those of the fix's time, whose date part is that column.
- The `ics` calendar parsing and its time-zone handling are not modelled. Events arrive as name, start instant and optional end instant. `calendar.events` is a set in the library; the model takes it as a sequence in the order the loop meets the events.
- The file-existence check, the `print` messages, the `datetime.now()` defaults and the `__main__` block are I/O and configuration, and are not modelled.
- `strftime` of the Date column (`%d.%m.%Y`) and the `HH:MM:00` texts are not rendered. Rows carry the day number, the hours and minutes of a duration, and From and To as seconds since midnight.
- Floating point is not modelled. The minimum cluster time is an integer number of microseconds (0.5 minutes is 30 seconds). Durations are exact integers; the source's float minutes agree with them on the whole-second instants that rounding produces.
- Nanoseconds are not modelled. pandas timestamps carry nanoseconds, and `round_to_nearest_5_minutes` subtracts only the `.microsecond` part, so a sub-microsecond part survives rounding and, through the float minutes of the Work Duration, can lower a row's floored minute by one. The model's time line is in microseconds and cannot represent this; inputs whose times have at most six fractional digits (millisecond timestamps, for instance) never carry such a part.
- `apply_time_offset` takes a whole number of hours only, as in the default configuration.
- `ClusterDetector.DetectClusters`: the source's test `current_cluster and last_in_radius_time` reads a timestamp's truthiness. The model reads it as "an in-radius time was recorded", which always holds once a cluster is open.
- An event's name is taken to be present. The source's `'*' in event.name` raises on an event without a name, and the model has no such event.
- `DayAggregator.TotalWorked`: the source keeps a row in the total only when its From and To texts are non-empty. Day rows always fill both, so the model sums every row whose From and To are present.

=== FILE: calendar_index.dfy ===
/**
 * The filtering and grouping part of `load_events_from_ics`: calendar
 * events of the target month whose name carries the `*` marker, rendered as
 * "name (HH:MM - HH:MM)" and grouped by the day they start on, in the order
 * the events are encountered.
 */
module CalendarIndex {
  import opened Wrappers
  import opened Instants

  datatype Event = Event(name: string, begin: int, end: Option<int>)

  /** The event starts in the target month and year and its name contains `*`. */
  predicate Selected(e: Event, year: int, month: int)
    ensures Selected(e, year, month) ==> 1 <= month <= 12 && |e.name| > 0
  {
    InMonth(e.begin, year, month) && '*' in e.name
  }

  function DigitChar(n: int): char
    requires 0 <= n < 10
  {
    ('0' as int + n) as char
  }

  function DigitValue(c: char): int
  {
    c as int - '0' as int
  }

  /** The zero-padded `%H` or `%M` field of 0 <= n < 100. */
  function TwoDigits(n: int): (s: string)
    requires 0 <= n < 100
    ensures |s| == 2 && '0' <= s[0] <= '9' && '0' <= s[1] <= '9'
    ensures DigitValue(s[0]) * 10 + DigitValue(s[1]) == n
  {
    [DigitChar(n / 10), DigitChar(n % 10)]
  }

  /** `strftime('%H:%M')` */
  function ClockText(t: int): (s: string)
    ensures |s| == 5 && s[2] == ':'
    ensures '0' <= s[0] <= '9' && '0' <= s[1] <= '9' && '0' <= s[3] <= '9' && '0' <= s[4] <= '9'
  {
    TwoDigits(HourOf(t)) + ":" + TwoDigits(MinuteOf(t))
  }

  /** Reads "HH:MM" back as minutes since midnight. */
  function ParseClock(s: string): int
    requires |s| == 5
  {
    (DigitValue(s[0]) * 10 + DigitValue(s[1])) * 60 + DigitValue(s[3]) * 10 + DigitValue(s[4])
  }

  /** The rendered clock reads back as the hour and minute of the instant. */
  lemma ClockTextRoundTrip(t: int)
    ensures ParseClock(ClockText(t)) == HourOf(t) * 60 + MinuteOf(t)
  {
    var h, m := TwoDigits(HourOf(t)), TwoDigits(MinuteOf(t));
    var s := ClockText(t);
    assert s[0] == h[0] && s[1] == h[1] && s[3] == m[0] && s[4] == m[1];
  }

  /** The description of an event: its name, then its start and end clocks in brackets; the end clock is empty when the event has no end. */
  function Describe(e: Event): (s: string)
    ensures |s| == |e.name| + (if e.end.Some? then 16 else 11)
    ensures s[..|e.name|] == e.name && s[|s| - 1] == ')'
  {
    e.name + " (" + ClockText(e.begin) + " - "
      + (match e.end case Some(t) => ClockText(t) case None => "") + ")"
  }

  /**
   * The description can be read back: it starts with the name, then the
   * start clock, then the end clock or nothing when the event has no end.
   */
  lemma DescriptionRoundTrip(e: Event)
    ensures var d, n := Describe(e), |e.name|;
      && |d| == n + (if e.end.Some? then 16 else 11)
      && d[..n] == e.name
      && d[n..n + 2] == " ("
      && ParseClock(d[n + 2..n + 7]) == HourOf(e.begin) * 60 + MinuteOf(e.begin)
      && d[n + 7..n + 10] == " - "
      && (e.end.None? ==> d[n + 10..] == ")")
      && (e.end.Some? ==> ParseClock(d[n + 10..n + 15]) == HourOf(e.end.value) * 60 + MinuteOf(e.end.value)
                          && d[n + 15..] == ")")
  {
    var n := |e.name|;
    var startText := ClockText(e.begin);
    var endText := match e.end case Some(t) => ClockText(t) case None => "";
    var d := Describe(e);
    assert d == e.name + " (" + startText + " - " + endText + ")";
    assert d[n + 2..n + 7] == startText;
    ClockTextRoundTrip(e.begin);
    if e.end.Some? {
      assert d[n + 10..n + 15] == endText;
      ClockTextRoundTrip(e.end.value);
    }
  }

  /** The descriptions of the selected events starting on `day`, in input order. */
  function DayDescriptions(events: seq<Event>, year: int, month: int, day: int): seq<string>
    decreases |events|
  {
    if events == [] then []
    else
      var e := events[|events| - 1];
      DayDescriptions(events[..|events| - 1], year, month, day)
        + (if Selected(e, year, month) && DayOf(e.begin) == day then [Describe(e)] else [])
  }

  /** The days on which at least one selected event starts. */
  function SelectedDays(events: seq<Event>, year: int, month: int): set<int>
  {
    set e | e in events && Selected(e, year, month) :: DayOf(e.begin)
  }

  /** The index `events_by_day`: every selected day mapped to its descriptions. */
  function EventIndex(events: seq<Event>, year: int, month: int): (r: map<int, seq<string>>)
    ensures forall day :: day in r <==> DayDescriptions(events, year, month, day) != []
  {
    assert forall day :: day in SelectedDays(events, year, month) <==> DayDescriptions(events, year, month, day) != [] by {
      forall day {
        IndexedIffSomeEvent(events, year, month, day);
      }
    }
    map day | day in SelectedDays(events, year, month) :: DayDescriptions(events, year, month, day)
  }

  /** `events_by_day.get(day, [])` */
  function Lookup(index: map<int, seq<string>>, day: int): (r: seq<string>)
    ensures day in index ==> r == index[day]
    ensures day !in index ==> r == []
  {
    if day in index then index[day] else []
  }

  /** `"\n".join(parts)` */
  function JoinLines(parts: seq<string>): (s: string)
    ensures parts == [] ==> s == ""
    ensures |parts| == 1 ==> s == parts[0]
    ensures '\n' !in s ==> |parts| <= 1
    decreases |parts|
  {
    if parts == [] then ""
    else if |parts| == 1 then parts[0]
    else
      var head := JoinLines(parts[..|parts| - 1]);
      assert (head + "\n")[|head|] == '\n';
      head + "\n" + parts[|parts| - 1]
  }

  /** A day is a key of the index exactly when some selected event starts on it. */
  lemma {:induction false} IndexedIffSomeEvent(events: seq<Event>, year: int, month: int, day: int)
    ensures DayDescriptions(events, year, month, day) != [] <==> day in SelectedDays(events, year, month)
    decreases |events|
  {
    if events != [] {
      var prefix, e := events[..|events| - 1], events[|events| - 1];
      assert events == prefix + [e];
      IndexedIffSomeEvent(prefix, year, month, day);
      SelectedDaysStep(prefix, e, year, month);
    }
  }

  /** One more event adds its start day to the selected days exactly when it is selected. */
  lemma SelectedDaysStep(events: seq<Event>, e: Event, year: int, month: int)
    ensures SelectedDays(events + [e], year, month)
      == SelectedDays(events, year, month) + (if Selected(e, year, month) then {DayOf(e.begin)} else {})
  {
  }

  /** One pass of the loop body: a selected event is appended to the list of its start day. */
  function AddEvent(index: map<int, seq<string>>, e: Event, year: int, month: int): (r: map<int, seq<string>>)
    ensures r.Keys == index.Keys + (if Selected(e, year, month) then {DayOf(e.begin)} else {})
    ensures forall day :: Lookup(r, day)
              == Lookup(index, day) + (if Selected(e, year, month) && day == DayOf(e.begin) then [Describe(e)] else [])
  {
    if Selected(e, year, month) then index[DayOf(e.begin) := Lookup(index, DayOf(e.begin)) + [Describe(e)]] else index
  }

  /** The descriptions one day holds after one more event. */
  lemma IndexValueStep(events: seq<Event>, e: Event, year: int, month: int, day: int)
    requires day in SelectedDays(events + [e], year, month)
    ensures day in AddEvent(EventIndex(events, year, month), e, year, month)
    ensures EventIndex(events + [e], year, month)[day] == AddEvent(EventIndex(events, year, month), e, year, month)[day]
  {
    var all := events + [e];
    assert all[..|all| - 1] == events;
    SelectedDaysStep(events, e, year, month);
    var extra := if Selected(e, year, month) && DayOf(e.begin) == day then [Describe(e)] else [];
    assert EventIndex(all, year, month)[day] == DayDescriptions(events, year, month, day) + extra;
    var before := EventIndex(events, year, month);
    IndexLookup(events, year, month, day);
    var after := AddEvent(before, e, year, month);
    assert Lookup(after, day) == DayDescriptions(events, year, month, day) + extra;
  }

  lemma IndexKeysStep(events: seq<Event>, e: Event, year: int, month: int)
    ensures EventIndex(events + [e], year, month).Keys == AddEvent(EventIndex(events, year, month), e, year, month).Keys
  {
    SelectedDaysStep(events, e, year, month);
    assert EventIndex(events + [e], year, month).Keys == SelectedDays(events + [e], year, month);
    assert EventIndex(events, year, month).Keys == SelectedDays(events, year, month);
  }

  /** Appending one event to the input updates the index as `defaultdict(list).append` does. */
  lemma IndexStep(events: seq<Event>, e: Event, year: int, month: int)
    ensures EventIndex(events + [e], year, month) == AddEvent(EventIndex(events, year, month), e, year, month)
  {
    var after, expected := EventIndex(events + [e], year, month), AddEvent(EventIndex(events, year, month), e, year, month);
    IndexKeysStep(events, e, year, month);
    forall day | day in after.Keys
      ensures after[day] == expected[day]
    {
      IndexValueStep(events, e, year, month, day);
    }
  }

  /** IndexStep for one more event of a prefix. */
  lemma IndexPrefixStep(events: seq<Event>, i: int, year: int, month: int)
    requires 0 <= i < |events|
    ensures EventIndex(events[..i + 1], year, month) == AddEvent(EventIndex(events[..i], year, month), events[i], year, month)
  {
    assert events[..i + 1] == events[..i] + [events[i]];
    IndexStep(events[..i], events[i], year, month);
  }

  /**
   * The loop of `load_events_from_ics` that fills `events_by_day`, over the
   * events in the order the calendar yields them.
   */
  method LoadEvents(events: seq<Event>, month: int, year: int) returns (eventsByDay: map<int, seq<string>>)
    ensures eventsByDay == EventIndex(events, year, month)
    ensures forall day :: Lookup(eventsByDay, day) == DayDescriptions(events, year, month, day)
  {
    eventsByDay := map[];
    var i := 0;
    while i < |events|
      invariant 0 <= i <= |events|
      invariant eventsByDay == EventIndex(events[..i], year, month)
    {
      var event := events[i];
      IndexPrefixStep(events, i, year, month);
      if Selected(event, year, month) {
        var day := DayOf(event.begin);
        eventsByDay := eventsByDay[day := Lookup(eventsByDay, day) + [Describe(event)]];
      }
      i := i + 1;
    }
    assert events[..|events|] == events;
    forall day ensures Lookup(eventsByDay, day) == DayDescriptions(events, year, month, day) {
      IndexLookup(events, year, month, day);
    }
  }

  /** `events_by_day.get(day, [])` is the descriptions of that day's selected events, in input order. */
  lemma IndexLookup(events: seq<Event>, year: int, month: int, day: int)
    ensures Lookup(EventIndex(events, year, month), day) == DayDescriptions(events, year, month, day)
  {
    IndexedIffSomeEvent(events, year, month, day);
  }

  /**
   * Only marked events of the target month appear, each under the day it
   * starts on; a day without such events has an empty Event text.
   */
  lemma {:induction false} IndexHoldsOnlySelectedEvents(events: seq<Event>, year: int, month: int, day: int)
    ensures forall d :: d in DayDescriptions(events, year, month, day) ==>
              exists e :: e in events && Selected(e, year, month) && DayOf(e.begin) == day && d == Describe(e)
    ensures day !in EventIndex(events, year, month) ==> JoinLines(Lookup(EventIndex(events, year, month), day)) == ""
    decreases |events|
  {
    if events != [] {
      var prefix := events[..|events| - 1];
      IndexHoldsOnlySelectedEvents(prefix, year, month, day);
      forall d | d in DayDescriptions(events, year, month, day)
        ensures exists e :: e in events && Selected(e, year, month) && DayOf(e.begin) == day && d == Describe(e)
      {
        if d in DayDescriptions(prefix, year, month, day) {
          var e :| e in prefix && Selected(e, year, month) && DayOf(e.begin) == day && d == Describe(e);
          assert e in events;
        } else {
          var last := events[|events| - 1];
          assert d == Describe(last) && Selected(last, year, month) && DayOf(last.begin) == day;
          assert last in events;
        }
      }
    }
  }
}

=== FILE: cluster_detector.dfy ===
/**
 * `detect_clusters`: one forward pass over the location fixes of a month
 * that turns runs of in-radius fixes into (entry, exit) presence intervals.
 *
 * The specification is a left fold (`Scan`) over an explicit two-state
 * machine, Idle or Open(first, lastInRadius). The method keeps the source's
 * own state, the list of cluster members and its gap rule, and is proved to
 * produce exactly the fold's output.
 */
module ClusterDetector {
  import opened Wrappers
  import opened Instants

  /** One location record; accuracy is carried but never consulted. */
  datatype Fix = Fix(time: int, latitude: real, longitude: real, accuracy: real)

  /** A presence interval: the first in-radius time and the last in-radius time of a cluster. */
  datatype Interval = Interval(entry: int, exit: int)

  datatype Cluster = Idle | Open(first: int, lastInRadius: int)

  datatype ScanState = ScanState(cluster: Cluster, found: seq<Interval>)

  /**
   * `is_within_radius` applied to a fix; the geodesic test itself is the
   * parameter `inRadius`.
   */
  predicate Within(p: Fix, inRadius: (real, real) -> bool)
  {
    inRadius(p.latitude, p.longitude)
  }

  /** The radius test depends on the coordinates alone, not on the fix's time or accuracy. */
  lemma WithinIgnoresTimeAndAccuracy(p: Fix, q: Fix, inRadius: (real, real) -> bool)
    requires p.latitude == q.latitude && p.longitude == q.longitude
    ensures Within(p, inRadius) == Within(q, inRadius)
  {
  }

  /** `timedelta.seconds` of a difference: its whole seconds within the day part only. */
  function GapSeconds(delta: int): (s: int)
    ensures 0 <= s < 86_400
    ensures 0 <= delta < DAY ==> s * SECOND <= delta < (s + 1) * SECOND
  {
    (delta / SECOND) % 86_400
  }

  /**
   * One fix of the pass: an in-radius fix opens or extends the cluster, an
   * outside fix closes it, and only closing an open cluster that lasted the
   * minimum emits, exactly that cluster's interval.
   */
  function Step(s: ScanState, p: Fix, inRadius: (real, real) -> bool, minDuration: int): (r: ScanState)
    ensures r.cluster.Idle? <==> !Within(p, inRadius)
    ensures r.found == s.found
            || (&& !Within(p, inRadius) && s.cluster.Open?
                && s.cluster.lastInRadius - s.cluster.first >= minDuration
                && r.found == s.found + [Interval(s.cluster.first, s.cluster.lastInRadius)])
  {
    if Within(p, inRadius) then
      match s.cluster
      case Idle => ScanState(Open(p.time, p.time), s.found)
      case Open(first, _) => ScanState(Open(first, p.time), s.found)
    else
      match s.cluster
      case Idle => s
      case Open(first, last) =>
        ScanState(Idle, if last - first >= minDuration then s.found + [Interval(first, last)] else s.found)
  }

  /**
   * The state after the whole of `ps`. Every emitted interval lasts at least
   * the minimum, and each one, like an open cluster, used up fixes of its
   * own: two per interval (one in radius, one outside) and one for the open
   * cluster.
   */
  function Scan(ps: seq<Fix>, inRadius: (real, real) -> bool, minDuration: int): (r: ScanState)
    ensures 2 * |r.found| + (if r.cluster.Open? then 1 else 0) <= |ps|
    ensures forall k :: 0 <= k < |r.found| ==> r.found[k].exit - r.found[k].entry >= minDuration
    decreases |ps|
  {
    if ps == [] then ScanState(Idle, [])
    else Step(Scan(ps[..|ps| - 1], inRadius, minDuration), ps[|ps| - 1], inRadius, minDuration)
  }

  /** The intervals the pass emits; a cluster still open at the end is not among them. */
  function Clusters(ps: seq<Fix>, inRadius: (real, real) -> bool, minDuration: int): (r: seq<Interval>)
    ensures 2 * |r| <= |ps|
    ensures forall k :: 0 <= k < |r| ==> r[k].exit - r[k].entry >= minDuration
  {
    Scan(ps, inRadius, minDuration).found
  }

  /**
   * `detect_clusters(df, …, min_cluster_time_minutes)` with the minimum
   * duration given in microseconds. The member list and the 60-second gap
   * rule are kept as the source has them; the postcondition shows that the
   * output depends only on the first member and the last in-radius time.
   */
  method DetectClusters(points: seq<Fix>, inRadius: (real, real) -> bool, minDuration: int)
    returns (clusters: seq<Interval>)
    ensures clusters == Clusters(points, inRadius, minDuration)
  {
    clusters := [];
    var currentCluster: seq<Fix> := [];
    var lastInRadiusTime: Option<int> := None;
    var i := 0;
    while i < |points|
      invariant 0 <= i <= |points|
      invariant currentCluster != [] ==> lastInRadiusTime.Some?
      invariant Scan(points[..i], inRadius, minDuration)
                == ScanState(if currentCluster == [] then Idle
                             else Open(currentCluster[0].time, lastInRadiusTime.value),
                             clusters)
    {
      var row := points[i];
      if Within(row, inRadius) {
        if currentCluster == [] {
          currentCluster := [row];
        } else if GapSeconds(row.time - currentCluster[|currentCluster| - 1].time) > 60 {
          currentCluster := currentCluster + [row];
        }
        lastInRadiusTime := Some(row.time);
      } else {
        if currentCluster != [] && lastInRadiusTime.Some? {
          if lastInRadiusTime.value - currentCluster[0].time >= minDuration {
            clusters := clusters + [Interval(currentCluster[0].time, lastInRadiusTime.value)];
          }
          currentCluster := [];
        }
      }
      assert points[..i + 1][..i] == points[..i];
      i := i + 1;
    }
    assert points[..|points|] == points;
  }

  /**
   * `c` is the run ps[i..j] of in-radius fixes: it starts the run (the fix
   * before it, if any, is outside), and the fix right after it is outside.
   */
  ghost predicate ClosedRun(ps: seq<Fix>, inRadius: (real, real) -> bool, c: Interval, i: int, j: int)
  {
    && 0 <= i <= j && j + 1 < |ps|
    && ps[i].time == c.entry && ps[j].time == c.exit
    && (forall m :: i <= m <= j ==> Within(ps[m], inRadius))
    && !Within(ps[j + 1], inRadius)
    && (i == 0 || !Within(ps[i - 1], inRadius))
  }

  /** The open cluster is the run ps[i..] reaching the end of `ps`. */
  ghost predicate OpenRun(ps: seq<Fix>, inRadius: (real, real) -> bool, first: int, last: int, i: int)
  {
    && 0 <= i < |ps|
    && ps[i].time == first && ps[|ps| - 1].time == last
    && (forall m :: i <= m < |ps| ==> Within(ps[m], inRadius))
    && (i == 0 || !Within(ps[i - 1], inRadius))
  }

  lemma ClosedRunExtends(ps: seq<Fix>, qs: seq<Fix>, inRadius: (real, real) -> bool, c: Interval, i: int, j: int)
    requires ClosedRun(ps, inRadius, c, i, j)
    requires |ps| <= |qs| && qs[..|ps|] == ps
    ensures ClosedRun(qs, inRadius, c, i, j)
  {
    forall m | i <= m <= j + 1
      ensures qs[m] == ps[m]
    {
      assert qs[..|ps|][m] == qs[m];
    }
    if i > 0 {
      assert qs[..|ps|][i - 1] == qs[i - 1];
    }
  }

  /**
   * What the state means: the machine is Idle exactly when there is no fix
   * or the last one is outside, and an open cluster is the run of in-radius
   * fixes at the end of the input.
   */
  lemma {:induction false} ClusterMeaning(ps: seq<Fix>, inRadius: (real, real) -> bool, minDuration: int)
    ensures var s := Scan(ps, inRadius, minDuration);
      && (s.cluster.Idle? <==> (ps == [] || !Within(ps[|ps| - 1], inRadius)))
      && (s.cluster.Open? ==> exists i :: OpenRun(ps, inRadius, s.cluster.first, s.cluster.lastInRadius, i))
    decreases |ps|
  {
    if ps != [] {
      var n := |ps|;
      var prefix, p := ps[..n - 1], ps[n - 1];
      assert ps == prefix + [p];
      ClusterMeaning(prefix, inRadius, minDuration);
      var before := Scan(prefix, inRadius, minDuration);
      match before.cluster
      case Idle =>
        if Within(p, inRadius) {
          assert OpenRun(ps, inRadius, p.time, p.time, n - 1);
        }
      case Open(first, last) =>
        var i :| OpenRun(prefix, inRadius, first, last, i);
        if Within(p, inRadius) {
          assert OpenRun(ps, inRadius, first, p.time, i);
        }
    }
  }

  /** Every emitted interval is a closed run of in-radius fixes. */
  lemma {:induction false} FoundAreClosedRuns(ps: seq<Fix>, inRadius: (real, real) -> bool, minDuration: int)
    ensures forall c :: c in Scan(ps, inRadius, minDuration).found ==> exists i, j :: ClosedRun(ps, inRadius, c, i, j)
    decreases |ps|
  {
    if ps != [] {
      var n := |ps|;
      var prefix, p := ps[..n - 1], ps[n - 1];
      assert ps == prefix + [p];
      FoundAreClosedRuns(prefix, inRadius, minDuration);
      var before := Scan(prefix, inRadius, minDuration);
      var after := Scan(ps, inRadius, minDuration);
      forall c | c in before.found
        ensures exists i, j :: ClosedRun(ps, inRadius, c, i, j)
      {
        var i, j :| ClosedRun(prefix, inRadius, c, i, j);
        ClosedRunExtends(prefix, ps, inRadius, c, i, j);
      }
      if after.found != before.found {
        ClusterMeaning(prefix, inRadius, minDuration);
        var first, last := before.cluster.first, before.cluster.lastInRadius;
        var i :| OpenRun(prefix, inRadius, first, last, i);
        var c := Interval(first, last);
        assert ClosedRun(ps, inRadius, c, i, n - 2);
        assert after.found == before.found + [c];
      }
    }
  }

  /**
   * What the state means: the machine is Idle exactly when there is no fix
   * or the last one is outside; an open cluster is the run of in-radius
   * fixes at the end of the input; every emitted interval is a closed run of
   * in-radius fixes lasting at least the minimum.
   */
  lemma ScanMeaning(ps: seq<Fix>, inRadius: (real, real) -> bool, minDuration: int)
    ensures var s := Scan(ps, inRadius, minDuration);
      && (s.cluster.Idle? <==> (ps == [] || !Within(ps[|ps| - 1], inRadius)))
      && (s.cluster.Open? ==> exists i :: OpenRun(ps, inRadius, s.cluster.first, s.cluster.lastInRadius, i))
      && (forall c :: c in s.found ==>
            c.exit - c.entry >= minDuration && exists i, j :: ClosedRun(ps, inRadius, c, i, j))
  {
    ClusterMeaning(ps, inRadius, minDuration);
    FoundAreClosedRuns(ps, inRadius, minDuration);
  }

  /**
   * Every emitted interval (s, e) spans a maximal run of in-radius fixes
   * whose first fix is at s and whose last is at e, the fix right after the
   * run is outside the radius, and e - s is at least the minimum; on
   * time-sorted input s <= e.
   */
  lemma EmittedIntervalsAreClosedRuns(ps: seq<Fix>, inRadius: (real, real) -> bool, minDuration: int, c: Interval)
    requires c in Clusters(ps, inRadius, minDuration)
    ensures c.exit - c.entry >= minDuration
    ensures exists i, j :: ClosedRun(ps, inRadius, c, i, j)
    ensures Sorted(ps) ==> c.entry <= c.exit
  {
    ScanMeaning(ps, inRadius, minDuration);
    var i, j :| ClosedRun(ps, inRadius, c, i, j);
    if Sorted(ps) && i < j {
      assert ps[i].time <= ps[j].time;
    }
  }

  ghost predicate Sorted(ps: seq<Fix>)
  {
    forall a, b :: 0 <= a < b < |ps| ==> ps[a].time <= ps[b].time
  }

  /** Intervals each well formed, one after the other, never overlapping. */
  ghost predicate Chronological(cs: seq<Interval>)
  {
    && (forall k :: 0 <= k < |cs| ==> cs[k].entry <= cs[k].exit)
    && (forall a, b :: 0 <= a < b < |cs| ==> cs[a].exit <= cs[b].entry)
  }

  /** The intervals emitted after a prefix of the input are a prefix of those emitted after all of it. */
  lemma {:induction false} FoundOnlyGrows(ps: seq<Fix>, n: int, inRadius: (real, real) -> bool, minDuration: int)
    requires 0 <= n <= |ps|
    ensures Scan(ps[..n], inRadius, minDuration).found <= Scan(ps, inRadius, minDuration).found
    decreases |ps|
  {
    if n < |ps| {
      var prefix := ps[..|ps| - 1];
      assert ps[..n] == prefix[..n];
      FoundOnlyGrows(prefix, n, inRadius, minDuration);
    } else {
      assert ps[..n] == ps;
    }
  }

  /** Within a run of in-radius fixes starting at `i`, the cluster is open from ps[i] to the latest fix. */
  lemma {:induction false} OpenDuringRun(ps: seq<Fix>, inRadius: (real, real) -> bool, minDuration: int, i: int, k: int)
    requires 0 <= i <= k < |ps|
    requires forall m :: i <= m <= k ==> Within(ps[m], inRadius)
    requires i == 0 || !Within(ps[i - 1], inRadius)
    ensures Scan(ps[..k + 1], inRadius, minDuration).cluster == Open(ps[i].time, ps[k].time)
    decreases k
  {
    assert ps[..k + 1][..k] == ps[..k];
    assert ps[..k + 1][k] == ps[k];
    if k == i {
      if i > 0 {
        var before := ps[..i];
        assert before[..i - 1] == ps[..i - 1] && before[i - 1] == ps[i - 1];
      }
    } else {
      OpenDuringRun(ps, inRadius, minDuration, i, k - 1);
    }
  }

  /**
   * The converse of EmittedIntervalsAreClosedRuns: every closed run of
   * in-radius fixes lasting at least the minimum is emitted.
   */
  lemma ClosedRunsAreEmitted(ps: seq<Fix>, inRadius: (real, real) -> bool, minDuration: int,
                                                c: Interval, i: int, j: int)
    requires ClosedRun(ps, inRadius, c, i, j)
    requires c.exit - c.entry >= minDuration
    ensures c in Clusters(ps, inRadius, minDuration)
  {
    OpenDuringRun(ps, inRadius, minDuration, i, j);
    var upTo := ps[..j + 2];
    assert upTo[..j + 1] == ps[..j + 1] && upTo[j + 1] == ps[j + 1];
    var found := Scan(upTo, inRadius, minDuration).found;
    assert found[|found| - 1] == c;
    FoundOnlyGrows(ps, j + 2, inRadius, minDuration);
    assert Scan(ps, inRadius, minDuration).found[|found| - 1] == c;
  }

  /** On time-sorted input the emitted intervals are in time order and do not overlap. */
  lemma {:induction false} ClustersAreChronological(ps: seq<Fix>, inRadius: (real, real) -> bool, minDuration: int)
    requires Sorted(ps)
    ensures Chronological(Clusters(ps, inRadius, minDuration))
    ensures var s := Scan(ps, inRadius, minDuration);
      && (ps != [] ==> forall c :: c in s.found ==> c.exit <= ps[|ps| - 1].time)
      && (s.cluster.Open? ==>
            && s.cluster.first <= s.cluster.lastInRadius
            && ps != [] && s.cluster.lastInRadius == ps[|ps| - 1].time
            && forall c :: c in s.found ==> c.exit <= s.cluster.first)
    decreases |ps|
  {
    if ps != [] {
      var n := |ps|;
      var prefix, p := ps[..n - 1], ps[n - 1];
      assert Sorted(prefix);
      ClustersAreChronological(prefix, inRadius, minDuration);
      var before := Scan(prefix, inRadius, minDuration);
      if prefix != [] {
        assert prefix[n - 2].time <= p.time;
      }
      match before.cluster
      case Idle =>
      case Open(first, last) =>
        if !Within(p, inRadius) && last - first >= minDuration {
          var c := Interval(first, last);
          var found := before.found + [c];
          forall a, b | 0 <= a < b < |found|
            ensures found[a].exit <= found[b].entry
          {
            if b < |before.found| {
              assert before.found[a] == found[a] && before.found[b] == found[b];
            } else {
              assert found[a] in before.found;
            }
          }
        }
    }
  }

  /**
   * A cluster still open when the input ends is dropped: appending any
   * number of in-radius fixes never emits anything.
   */
  lemma {:induction false} OpenClusterAtEndIsDropped(ps: seq<Fix>, tail: seq<Fix>, inRadius: (real, real) -> bool, minDuration: int)
    requires forall k :: 0 <= k < |tail| ==> Within(tail[k], inRadius)
    ensures Clusters(ps + tail, inRadius, minDuration) == Clusters(ps, inRadius, minDuration)
    decreases |tail|
  {
    if tail != [] {
      var rest := tail[..|tail| - 1];
      var all := ps + tail;
      assert all[..|all| - 1] == ps + rest;
      assert all[|all| - 1] == tail[|tail| - 1];
      OpenClusterAtEndIsDropped(ps, rest, inRadius, minDuration);
      assert Scan(all, inRadius, minDuration).found == Scan(ps + rest, inRadius, minDuration).found;
    } else {
      assert ps + tail == ps;
    }
  }

  /** An out-of-radius fix when no cluster is open changes nothing. */
  lemma OutsideWithoutClusterChangesNothing(ps: seq<Fix>, q: Fix, inRadius: (real, real) -> bool, minDuration: int)
    requires !Within(q, inRadius)
    requires ps == [] || !Within(ps[|ps| - 1], inRadius)
    ensures Scan(ps + [q], inRadius, minDuration) == Scan(ps, inRadius, minDuration)
  {
    ScanMeaning(ps, inRadius, minDuration);
    assert (ps + [q])[..|ps|] == ps;
  }

  /** An in-radius fix never emits an interval: only an out-of-radius fix closes a cluster. */
  lemma OnlyOutsideFixesClose(ps: seq<Fix>, q: Fix, inRadius: (real, real) -> bool, minDuration: int)
    requires Clusters(ps + [q], inRadius, minDuration) != Clusters(ps, inRadius, minDuration)
    ensures !Within(q, inRadius)
    ensures ps != [] && Within(ps[|ps| - 1], inRadius)
  {
    assert (ps + [q])[..|ps|] == ps;
    if Within(q, inRadius) {
      OpenClusterAtEndIsDropped(ps, [q], inRadius, minDuration);
    } else if ps == [] || !Within(ps[|ps| - 1], inRadius) {
      OutsideWithoutClusterChangesNothing(ps, q, inRadius, minDuration);
    }
  }

  /**
   * In at 10:00 and 10:30, out at 10:32, minimum half a minute: one
   * interval from 10:00 to 10:30.
   */
  lemma ThirtyMinuteVisit()
    ensures var inRadius := (lat: real, lon: real) => lat == 1.0;
      var ps := [Fix(10 * HOUR, 1.0, 0.0, 5.0), Fix(10 * HOUR + 30 * MINUTE, 1.0, 0.0, 5.0),
                 Fix(10 * HOUR + 32 * MINUTE, 0.0, 0.0, 5.0)];
      Clusters(ps, inRadius, 30 * SECOND) == [Interval(10 * HOUR, 10 * HOUR + 30 * MINUTE)]
  {
    var inRadius := (lat: real, lon: real) => lat == 1.0;
    var ps := [Fix(10 * HOUR, 1.0, 0.0, 5.0), Fix(10 * HOUR + 30 * MINUTE, 1.0, 0.0, 5.0),
               Fix(10 * HOUR + 32 * MINUTE, 0.0, 0.0, 5.0)];
    assert ps[..1][..0] == [];
    assert Scan(ps[..1], inRadius, 30 * SECOND) == ScanState(Open(10 * HOUR, 10 * HOUR), []);
    assert ps[..2][..1] == ps[..1];
    assert Scan(ps[..2], inRadius, 30 * SECOND) == ScanState(Open(10 * HOUR, 10 * HOUR + 30 * MINUTE), []);
    assert ps[..3][..2] == ps[..2];
    assert ps[..3] == ps;
  }
}

=== FILE: day_aggregator.dfy ===
/**
 * The aggregation section of `analyze_location_and_calendar`: presence
 * intervals are rounded, keyed by the day of their rounded entry, turned
 * into one row per day in ascending order, and closed by a summary row.
 */
module DayAggregator {
  import opened Wrappers
  import opened Instants
  import opened Rounding
  import opened ClusterDetector
  import opened CalendarIndex

  /** One value of `entry_exit_by_day`: rounded, not yet offset. */
  datatype DayTimes = DayTimes(entry: int, exit: int)

  /** The Date column: a calendar day, or the label of the summary row. */
  datatype DateCell = DayCell(day: int) | LabelCell(text: string)

  /** The "HH:MM:00" text of a work duration, as its two numbers. */
  datatype Duration = Duration(hours: int, minutes: int)

  /**
   * One output row. `from` and `to` are wall-clock seconds since midnight
   * (the "%H:%M:%S" texts); None is an empty cell.
   */
  datatype Row = Row(date: DateCell, event: string, worked: Duration, from: Option<int>, to: Option<int>)

  /** The summary row is labelled per script: "Total" in English, "Suma" in Polish. */
  datatype Language = English | Polish

  /**
   * The key of an interval: the date of its rounded entry, before any
   * offset. It is the next date exactly when the entry is at 23:57:30 or
   * later, since rounding then carries it over midnight; otherwise it is the
   * entry's own date.
   */
  function EntryDay(c: Interval): (d: int)
    ensures d == DayOf(c.entry) + (if c.entry % DAY >= DAY - HALF_STEP then 1 else 0)
  {
    RoundingNearMidnight(c.entry);
    DayOf(RoundToFiveMinutes(c.entry))
  }

  /** Rounding moves an instant to the next date exactly when it lies within 2:30 of the next midnight. */
  lemma RoundingNearMidnight(t: int)
    ensures DayOf(RoundToFiveMinutes(t)) == DayOf(t) + (if t % DAY >= DAY - HALF_STEP then 1 else 0)
  {
    var midnight := DayOf(t) * DAY;
    assert t % DAY == t - midnight;
    if t % DAY >= DAY - HALF_STEP {
      var next := midnight + DAY;
      assert next == FIVE_MINUTES * (288 * (DayOf(t) + 1));
      assert OnGrid(next);
      RoundingIsUnique(t, next);
      QuotientIs(next, DAY, DayOf(t) + 1);
    } else {
      assert midnight == FIVE_MINUTES * (288 * DayOf(t));
      assert OnGrid(midnight);
      RoundingIsIdempotent(midnight);
      RoundingIsMonotone(midnight, t);
      QuotientIs(RoundToFiveMinutes(t), DAY, DayOf(t));
    }
  }

  function Days(cs: seq<Interval>): set<int>
  {
    set c | c in cs :: EntryDay(c)
  }

  lemma DaysStep(cs: seq<Interval>, c: Interval)
    ensures Days(cs + [c]) == Days(cs) + {EntryDay(c)}
  {
    assert c in cs + [c];
    forall c' | c' in cs ensures c' in cs + [c] { }
  }

  /** The index of the first interval keyed by `day`. */
  function FirstOn(cs: seq<Interval>, day: int): (k: nat)
    requires day in Days(cs)
    ensures k < |cs| && EntryDay(cs[k]) == day
    ensures forall m :: 0 <= m < k ==> EntryDay(cs[m]) != day
    decreases |cs|
  {
    var prefix := cs[..|cs| - 1];
    assert cs == prefix + [cs[|cs| - 1]];
    DaysStep(prefix, cs[|cs| - 1]);
    if day in Days(prefix) then FirstOn(prefix, day) else |cs| - 1
  }

  /** The index of the last interval keyed by `day`. */
  function LastOn(cs: seq<Interval>, day: int): (k: nat)
    requires day in Days(cs)
    ensures k < |cs| && EntryDay(cs[k]) == day
    ensures forall m :: k < m < |cs| ==> EntryDay(cs[m]) != day
    decreases |cs|
  {
    var prefix := cs[..|cs| - 1];
    assert cs == prefix + [cs[|cs| - 1]];
    DaysStep(prefix, cs[|cs| - 1]);
    if EntryDay(cs[|cs| - 1]) == day then |cs| - 1 else LastOn(prefix, day)
  }

  /**
   * `entry_exit_by_day` after the loop: each keyed day holds the rounded
   * entry of its first interval and the rounded exit of its last one.
   */
  function DayTable(cs: seq<Interval>): (r: map<int, DayTimes>)
    ensures r.Keys == Days(cs)
    ensures forall day :: day in r ==> DayOf(r[day].entry) == day
  {
    map day | day in Days(cs) ::
      DayTimes(RoundToFiveMinutes(cs[FirstOn(cs, day)].entry), RoundToFiveMinutes(cs[LastOn(cs, day)].exit))
  }

  lemma FirstOnStep(cs: seq<Interval>, c: Interval, day: int)
    requires day in Days(cs)
    ensures day in Days(cs + [c])
    ensures FirstOn(cs + [c], day) == FirstOn(cs, day)
  {
    var all := cs + [c];
    assert all[..|all| - 1] == cs;
    DaysStep(cs, c);
  }

  lemma LastOnStep(cs: seq<Interval>, c: Interval, day: int)
    requires day in Days(cs) && EntryDay(c) != day
    ensures day in Days(cs + [c])
    ensures LastOn(cs + [c], day) == LastOn(cs, day)
  {
    var all := cs + [c];
    assert all[..|all| - 1] == cs;
    DaysStep(cs, c);
  }

  /**
   * One pass of the grouping loop's body: a new day is inserted, a known
   * day only has its exit overwritten.
   */
  function Record(table: map<int, DayTimes>, c: Interval): (r: map<int, DayTimes>)
    ensures var day := DayOf(RoundToFiveMinutes(c.entry));
      && r.Keys == table.Keys + {day}
      && r[day].exit == RoundToFiveMinutes(c.exit)
      && r[day].entry == (if day in table then table[day].entry else RoundToFiveMinutes(c.entry))
      && forall d :: d in table && d != day ==> r[d] == table[d]
  {
    var entryTime, exitTime := RoundToFiveMinutes(c.entry), RoundToFiveMinutes(c.exit);
    var day := DayOf(entryTime);
    if day !in table then table[day := DayTimes(entryTime, exitTime)]
    else table[day := table[day].(exit := exitTime)]
  }

  /** The value one day holds after one more interval. */
  lemma DayValueStep(cs: seq<Interval>, c: Interval, d: int)
    requires d in Days(cs + [c])
    ensures d in Record(DayTable(cs), c)
    ensures DayTable(cs + [c])[d] == Record(DayTable(cs), c)[d]
  {
    DaysStep(cs, c);
    if d in Days(cs) {
      KnownDayValueStep(cs, c, d);
    } else {
      var all := cs + [c];
      assert FirstOn(all, d) == |cs| && LastOn(all, d) == |cs|;
    }
  }

  lemma KnownDayValueStep(cs: seq<Interval>, c: Interval, d: int)
    requires d in Days(cs)
    ensures d in Days(cs + [c])
    ensures DayTable(cs + [c])[d] == Record(DayTable(cs), c)[d]
  {
    var all := cs + [c];
    FirstOnStep(cs, c, d);
    assert all[FirstOn(cs, d)] == cs[FirstOn(cs, d)];
    if d != EntryDay(c) {
      LastOnStep(cs, c, d);
      assert all[LastOn(cs, d)] == cs[LastOn(cs, d)];
    } else {
      assert LastOn(all, d) == |cs|;
    }
  }

  lemma DayKeysStep(cs: seq<Interval>, c: Interval)
    ensures DayTable(cs + [c]).Keys == Record(DayTable(cs), c).Keys
  {
    DaysStep(cs, c);
  }

  /** The table of the intervals so far plus one more is that one recorded into the table. */
  lemma DayTableStep(cs: seq<Interval>, c: Interval)
    ensures DayTable(cs + [c]) == Record(DayTable(cs), c)
  {
    var after, expected := DayTable(cs + [c]), Record(DayTable(cs), c);
    DayKeysStep(cs, c);
    forall d | d in after.Keys
      ensures after[d] == expected[d]
    {
      DayValueStep(cs, c, d);
    }
  }

  /** DayTableStep for one more interval of a prefix. */
  lemma DayTablePrefixStep(cs: seq<Interval>, i: int)
    requires 0 <= i < |cs|
    ensures DayTable(cs[..i + 1]) == Record(DayTable(cs[..i]), cs[i])
  {
    assert cs[..i + 1] == cs[..i] + [cs[i]];
    DayTableStep(cs[..i], cs[i]);
  }

  /**
   * The first loop of the aggregation: round both ends, key by the rounded
   * entry's date, keep the first entry and overwrite the exit.
   */
  method GroupByDay(clusters: seq<Interval>) returns (entryExitByDay: map<int, DayTimes>)
    ensures entryExitByDay == DayTable(clusters)
  {
    entryExitByDay := map[];
    var i := 0;
    while i < |clusters|
      invariant 0 <= i <= |clusters|
      invariant entryExitByDay == DayTable(clusters[..i])
    {
      var entryTime := RoundToFiveMinutes(clusters[i].entry);
      var exitTime := RoundToFiveMinutes(clusters[i].exit);
      var day := DayOf(entryTime);
      DayTablePrefixStep(clusters, i);
      if day !in entryExitByDay {
        entryExitByDay := entryExitByDay[day := DayTimes(entryTime, exitTime)];
      } else {
        entryExitByDay := entryExitByDay[day := entryExitByDay[day].(exit := exitTime)];
      }
      i := i + 1;
    }
    assert clusters[..|clusters|] == clusters;
  }

  /**
   * The overwrite is unconditional, yet on intervals in time order (what
   * the cluster pass emits for sorted fixes) the kept exit is the latest
   * rounded exit of the day and the kept entry the earliest rounded entry.
   */
  lemma OverwriteKeepsLatestExit(cs: seq<Interval>, day: int, k: int)
    requires Chronological(cs)
    requires 0 <= k < |cs| && EntryDay(cs[k]) == day
    ensures day in DayTable(cs)
    ensures DayTable(cs)[day].entry <= RoundToFiveMinutes(cs[k].entry)
    ensures RoundToFiveMinutes(cs[k].exit) <= DayTable(cs)[day].exit
    ensures DayTable(cs)[day].entry <= DayTable(cs)[day].exit
  {
    assert cs[k] in cs;
    var f, l := FirstOn(cs, day), LastOn(cs, day);
    ChronologicalBetween(cs, f, k, l);
    RoundingIsMonotone(cs[f].entry, cs[k].entry);
    RoundingIsMonotone(cs[k].exit, cs[l].exit);
    RoundingIsMonotone(cs[f].entry, cs[l].exit);
  }

  /** In chronological intervals, the entry of an earlier one is at most the exit of a later one. */
  lemma ChronologicalBetween(cs: seq<Interval>, f: int, k: int, l: int)
    requires Chronological(cs)
    requires 0 <= f <= k <= l < |cs|
    ensures cs[f].entry <= cs[k].entry && cs[k].exit <= cs[l].exit && cs[f].entry <= cs[l].exit
  {
    assert cs[f].entry <= cs[f].exit && cs[k].entry <= cs[k].exit && cs[l].entry <= cs[l].exit;
    if f < k {
      assert cs[f].exit <= cs[k].entry;
    }
    if k < l {
      assert cs[k].exit <= cs[l].entry;
    }
  }

  /** Every value in the table is on the 5-minute grid. */
  lemma DayTableOnGrid(cs: seq<Interval>)
    ensures forall day :: day in DayTable(cs) ==> OnGrid(DayTable(cs)[day].entry) && OnGrid(DayTable(cs)[day].exit)
  {
  }

  ghost predicate Increasing(s: seq<int>)
  {
    forall a, b :: 0 <= a < b < |s| ==> s[a] < s[b]
  }

  lemma HasElement(s: set<int>)
    requires s != {}
    ensures exists x :: x in s
  {
    if forall x :: x !in s {
      assert false;
    }
  }

  lemma {:induction false} SmallestExists(s: set<int>)
    requires s != {}
    ensures exists m :: m in s && forall x :: x in s ==> m <= x
    decreases |s|
  {
    HasElement(s);
    var x :| x in s;
    var rest := s - {x};
    if rest == {} {
      forall y | y in s ensures x <= y {
        assert y !in rest;
      }
    } else {
      assert |rest| == |s| - 1;
      SmallestExists(rest);
      var m :| m in rest && forall y :: y in rest ==> m <= y;
      SmallestOfOneMore(rest, x, m);
      assert s == rest + {x};
    }
  }

  /** Adding one element to a set with least element `m` gives the smaller of the two as least element. */
  lemma SmallestOfOneMore(rest: set<int>, x: int, m: int)
    requires m in rest && forall y :: y in rest ==> m <= y
    ensures var least := if x < m then x else m;
      least in rest + {x} && forall y :: y in rest + {x} ==> least <= y
  {
  }

  function Smallest(s: set<int>): (m: int)
    requires s != {}
    ensures m in s && forall x :: x in s ==> m <= x
  {
    SmallestExists(s);
    var m :| m in s && forall x :: x in s ==> m <= x;
    m
  }

  /** `sorted(entry_exit_by_day.items())`, by day: the days in ascending order. */
  function SortedDays(days: set<int>): (s: seq<int>)
    ensures Increasing(s) && |s| == |days|
    ensures forall d :: d in s <==> d in days
    decreases |days|
  {
    if days == {} then []
    else
      var m := Smallest(days);
      var rest := SortedDays(days - {m});
      assert forall d :: d in rest ==> m < d;
      [m] + rest
  }

  lemma AscendingHead(a: seq<int>)
    requires Increasing(a) && a != []
    ensures a[0] in a
    ensures forall d :: d in a ==> a[0] <= d
    ensures forall d :: d in a[1..] <==> d in a && d != a[0]
  {
    forall d | d in a ensures a[0] <= d {
      var k :| 0 <= k < |a| && a[k] == d;
      assert k == 0 || a[0] < a[k];
    }
    forall d ensures d in a[1..] <==> d in a && d != a[0] {
      if d in a[1..] {
        var k :| 1 <= k < |a| && a[k] == d;
        assert a[0] < a[k];
      }
      if d in a && d != a[0] {
        var k :| 0 <= k < |a| && a[k] == d;
        assert a[1..][k - 1] == d;
      }
    }
  }

  /** Ascending order is determined by the set of days alone. */
  lemma {:induction false} AscendingOrderIsUnique(a: seq<int>, b: seq<int>)
    requires Increasing(a) && Increasing(b)
    requires forall d :: d in a <==> d in b
    ensures a == b
    decreases |a|
  {
    if a != [] {
      AscendingHead(a);
      assert a[0] in b;
      AscendingHead(b);
      assert b[0] in a;
      assert a[0] == b[0];
      AscendingOrderIsUnique(a[1..], b[1..]);
      assert a == [a[0]] + a[1..] && b == [b[0]] + b[1..];
    } else if b != [] {
      AscendingHead(b);
      assert false;
    }
  }

  /**
   * The worked time of a span of microseconds as the source formats it:
   * `hours = int(d // 60)`, `minutes = int(d % 60)` for d the span in
   * minutes, i.e. whole hours and whole minutes, both floored.
   */
  function WorkedTime(span: int): (w: Duration)
    ensures 0 <= w.minutes < 60
    ensures 0 <= span ==> 0 <= w.hours
    ensures w.hours * HOUR + w.minutes * MINUTE <= span < w.hours * HOUR + (w.minutes + 1) * MINUTE
  {
    Duration(span / HOUR, (span % HOUR) / MINUTE)
  }

  function Minutes(w: Duration): int
  {
    w.hours * 60 + w.minutes
  }

  /** A span of whole minutes loses nothing to the formatting. */
  lemma WorkedTimeIsExact(m: int)
    ensures Minutes(WorkedTime(m * MINUTE)) == m
  {
    var q, r := m / 60, m % 60;
    assert m == 60 * q + r;
    assert m * MINUTE == HOUR * q + r * MINUTE;
    assert 0 <= r * MINUTE < HOUR;
    assert (m * MINUTE) / HOUR == q;
    assert (m * MINUTE) % HOUR == r * MINUTE;
  }

  /**
   * The row of one day: entry and exit shifted by the offset, the worked
   * time from their difference, the day's event descriptions joined by
   * newlines, and the wall-clock From and To.
   */
  function DayRow(day: int, times: DayTimes, eventsByDay: map<int, seq<string>>, offsetHours: int): (r: Row)
    ensures r.date == DayCell(day) && r.event == JoinLines(Lookup(eventsByDay, day))
    ensures r.from == Some(((HourOf(times.entry) + offsetHours) % 24) * 3_600 + MinuteOf(times.entry) * 60 + SecondOf(times.entry))
    ensures r.to == Some(((HourOf(times.exit) + offsetHours) % 24) * 3_600 + MinuteOf(times.exit) * 60 + SecondOf(times.exit))
    ensures r.worked == WorkedTime(times.exit - times.entry)
  {
    OffsetPreservesSpans(times.entry, times.exit, offsetHours);
    var entryTime := ApplyOffset(times.entry, offsetHours);
    var exitTime := ApplyOffset(times.exit, offsetHours);
    Row(DayCell(day), JoinLines(Lookup(eventsByDay, day)), WorkedTime(exitTime - entryTime),
        Some(WallClock(entryTime)), Some(WallClock(exitTime)))
  }

  /** The rows of the given days, in the given order. */
  function DayRows(days: seq<int>, table: map<int, DayTimes>, eventsByDay: map<int, seq<string>>, offsetHours: int): (r: seq<Row>)
    requires forall d :: d in days ==> d in table
    ensures |r| == |days|
    decreases |days|
  {
    if days == [] then []
    else
      var last := days[|days| - 1];
      assert forall d :: d in days[..|days| - 1] ==> d in days;
      DayRows(days[..|days| - 1], table, eventsByDay, offsetHours) + [DayRow(last, table[last], eventsByDay, offsetHours)]
  }

  lemma {:induction false} DayRowsAt(days: seq<int>, table: map<int, DayTimes>, eventsByDay: map<int, seq<string>>, offsetHours: int)
    requires forall d :: d in days ==> d in table
    ensures forall k :: 0 <= k < |days| ==>
              DayRows(days, table, eventsByDay, offsetHours)[k] == DayRow(days[k], table[days[k]], eventsByDay, offsetHours)
    decreases |days|
  {
    if days != [] {
      var prefix := days[..|days| - 1];
      assert forall d :: d in prefix ==> d in days;
      DayRowsAt(prefix, table, eventsByDay, offsetHours);
      var rows, before := DayRows(days, table, eventsByDay, offsetHours), DayRows(prefix, table, eventsByDay, offsetHours);
      var last := days[|days| - 1];
      assert rows == before + [DayRow(last, table[last], eventsByDay, offsetHours)];
      forall k | 0 <= k < |days|
        ensures rows[k] == DayRow(days[k], table[days[k]], eventsByDay, offsetHours)
      {
        if k < |days| - 1 {
          assert rows[k] == before[k] && prefix[k] == days[k];
        }
      }
    }
  }

  /** One more day of a prefix adds that day's row. */
  lemma DayRowsPrefixStep(days: seq<int>, i: int, table: map<int, DayTimes>,
                                             eventsByDay: map<int, seq<string>>, offsetHours: int)
    requires forall d :: d in days ==> d in table
    requires 0 <= i < |days|
    ensures forall d :: d in days[..i] ==> d in table
    ensures DayRows(days[..i + 1], table, eventsByDay, offsetHours)
            == DayRows(days[..i], table, eventsByDay, offsetHours) + [DayRow(days[i], table[days[i]], eventsByDay, offsetHours)]
  {
    assert days[..i + 1][..i] == days[..i];
    assert forall d :: d in days[..i + 1] ==> d in days;
  }

  /** The second loop of the aggregation: one row per day of the table, in ascending date order. */
  method BuildRows(entryExitByDay: map<int, DayTimes>, eventsByDay: map<int, seq<string>>, offsetHours: int)
    returns (entryExitPairs: seq<Row>)
    ensures entryExitPairs == DayRows(SortedDays(entryExitByDay.Keys), entryExitByDay, eventsByDay, offsetHours)
  {
    var days := SortedDays(entryExitByDay.Keys);
    assert forall d :: d in days ==> d in entryExitByDay;
    entryExitPairs := [];
    for i := 0 to |days|
      invariant forall d :: d in days[..i] ==> d in entryExitByDay
      invariant entryExitPairs == DayRows(days[..i], entryExitByDay, eventsByDay, offsetHours)
    {
      var day := days[i];
      var row := DayRow(day, entryExitByDay[day], eventsByDay, offsetHours);
      DayRowsPrefixStep(days, i, entryExitByDay, eventsByDay, offsetHours);
      entryExitPairs := entryExitPairs + [row];
    }
    assert days[..|days|] == days;
  }

  /** Exactly one row per keyed day, in strictly ascending date order. */
  lemma RowsFollowSortedDays(table: map<int, DayTimes>, eventsByDay: map<int, seq<string>>, offsetHours: int)
    ensures var rows := DayRows(SortedDays(table.Keys), table, eventsByDay, offsetHours);
      && |rows| == |table|
      && (forall k :: 0 <= k < |rows| ==> rows[k].date.DayCell? && rows[k].date.day in table)
      && (forall a, b :: 0 <= a < b < |rows| ==> rows[a].date.day < rows[b].date.day)
      && (forall day :: day in table ==> exists k :: 0 <= k < |rows| && rows[k].date == DayCell(day))
  {
    var days := SortedDays(table.Keys);
    var rows := DayRows(days, table, eventsByDay, offsetHours);
    DayRowsAt(days, table, eventsByDay, offsetHours);
    assert |rows| == |table.Keys|;
    forall k | 0 <= k < |rows|
      ensures rows[k].date == DayCell(days[k])
    {
      assert rows[k] == DayRow(days[k], table[days[k]], eventsByDay, offsetHours);
    }
    forall a, b | 0 <= a < b < |rows|
      ensures rows[a].date.day < rows[b].date.day
    {
      assert days[a] < days[b];
    }
    forall day | day in table
      ensures exists k :: 0 <= k < |rows| && rows[k].date == DayCell(day)
    {
      var k :| 0 <= k < |days| && days[k] == day;
      assert rows[k].date == DayCell(day);
    }
  }

  /**
   * Every day row has both clock cells filled and a worked time that
   * depends only on the rounded entry and exit, not on the offset.
   */
  lemma RowWorkedTimes(days: seq<int>, table: map<int, DayTimes>, eventsByDay: map<int, seq<string>>, offsetHours: int)
    requires forall d :: d in days ==> d in table
    ensures |DayRows(days, table, eventsByDay, offsetHours)| == |days|
    ensures forall k :: 0 <= k < |days| ==>
              var r := DayRows(days, table, eventsByDay, offsetHours)[k];
              && r.from.Some? && r.to.Some?
              && r.worked == WorkedTime(table[days[k]].exit - table[days[k]].entry)
  {
    DayRowsAt(days, table, eventsByDay, offsetHours);
  }

  /** Every day row is dated on its day and carries that day's descriptions joined by newlines. */
  lemma RowEvents(days: seq<int>, table: map<int, DayTimes>, eventsByDay: map<int, seq<string>>, offsetHours: int)
    requires forall d :: d in days ==> d in table
    ensures |DayRows(days, table, eventsByDay, offsetHours)| == |days|
    ensures forall k :: 0 <= k < |days| ==>
              var r := DayRows(days, table, eventsByDay, offsetHours)[k];
              r.date == DayCell(days[k]) && r.event == JoinLines(Lookup(eventsByDay, days[k]))
  {
    DayRowsAt(days, table, eventsByDay, offsetHours);
  }

  /** The wall-clock difference of a row, in seconds; rows with an empty From or To contribute nothing. */
  function RowClockSpan(r: Row): (s: int)
    ensures r.from.None? || r.to.None? ==> s == 0
    ensures r.from.Some? && r.to.Some? ==> s == r.to.value - r.from.value
  {
    if r.from.Some? && r.to.Some? then r.to.value - r.from.value else 0
  }

  /** `sum((strptime(To) - strptime(From)) …)` over the rows, in seconds. */
  function ClockSpan(rows: seq<Row>): (s: int)
    ensures (forall k :: 0 <= k < |rows| ==> rows[k].from.None? || rows[k].to.None?) ==> s == 0
    decreases |rows|
  {
    if rows == [] then 0 else ClockSpan(rows[..|rows| - 1]) + RowClockSpan(rows[|rows| - 1])
  }

  /** The total worked time written into the summary row. */
  function TotalWorked(rows: seq<Row>): (w: Duration)
    ensures 0 <= w.minutes < 60
    ensures w.hours * HOUR + w.minutes * MINUTE <= ClockSpan(rows) * SECOND < w.hours * HOUR + (w.minutes + 1) * MINUTE
  {
    WorkedTime(ClockSpan(rows) * SECOND)
  }

  function SummaryLabel(lang: Language): string
  {
    match lang
    case English => "Total"
    case Polish => "Suma"
  }

  /** The summary row: only the label and the total; Event, From and To are empty. */
  function SummaryRow(lang: Language, rows: seq<Row>): (r: Row)
    ensures r.date == LabelCell(if lang == English then "Total" else "Suma")
    ensures r.event == "" && r.from.None? && r.to.None?
    ensures r.worked == TotalWorked(rows)
  {
    Row(LabelCell(SummaryLabel(lang)), "", TotalWorked(rows), None, None)
  }

  /** The sum of the per-row worked minutes. */
  function RowMinutes(rows: seq<Row>): int
    decreases |rows|
  {
    if rows == [] then 0 else RowMinutes(rows[..|rows| - 1]) + Minutes(rows[|rows| - 1].worked)
  }

  /** A row whose wall-clock difference agrees with its worked time. */
  ghost predicate ClockAgrees(r: Row)
  {
    r.from.Some? && r.to.Some? && (r.to.value - r.from.value) * SECOND == Minutes(r.worked) * MINUTE
  }

  lemma {:induction false} ClockSpanSumsRows(rows: seq<Row>)
    requires forall k :: 0 <= k < |rows| ==> ClockAgrees(rows[k])
    ensures ClockSpan(rows) * SECOND == RowMinutes(rows) * MINUTE
    decreases |rows|
  {
    if rows != [] {
      var prefix := rows[..|rows| - 1];
      assert forall k :: 0 <= k < |prefix| ==> prefix[k] == rows[k];
      ClockSpanSumsRows(prefix);
      assert ClockAgrees(rows[|rows| - 1]);
    }
  }

  /** A grid-aligned day whose shifted entry and exit share a date gives a row whose clocks agree with its worked time. */
  lemma RowClockAgrees(day: int, times: DayTimes, eventsByDay: map<int, seq<string>>, offsetHours: int)
    requires OnGrid(times.entry) && OnGrid(times.exit)
    requires DayOf(ApplyOffset(times.entry, offsetHours)) == DayOf(ApplyOffset(times.exit, offsetHours))
    ensures ClockAgrees(DayRow(day, times, eventsByDay, offsetHours))
  {
    var a, b := ApplyOffset(times.entry, offsetHours), ApplyOffset(times.exit, offsetHours);
    GridIsWholeSeconds(times.entry, offsetHours);
    GridIsWholeSeconds(times.exit, offsetHours);
    WallClockDifference(a, b);
    GridSpanInMinutes(times.entry, times.exit);
    OffsetPreservesSpans(times.entry, times.exit, offsetHours);
    WorkedTimeIsExact(5 * (times.exit / FIVE_MINUTES - times.entry / FIVE_MINUTES));
  }

  /**
   * The summary total is the sum of the per-row worked times, with no
   * truncation mismatch, provided no row's shifted entry and exit fall on
   * different dates.
   */
  lemma TotalIsSumOfRows(table: map<int, DayTimes>, eventsByDay: map<int, seq<string>>, offsetHours: int)
    requires forall day :: day in table ==> OnGrid(table[day].entry) && OnGrid(table[day].exit)
    requires forall day :: day in table ==>
               DayOf(ApplyOffset(table[day].entry, offsetHours)) == DayOf(ApplyOffset(table[day].exit, offsetHours))
    ensures var rows := DayRows(SortedDays(table.Keys), table, eventsByDay, offsetHours);
      Minutes(TotalWorked(rows)) == RowMinutes(rows)
  {
    var days := SortedDays(table.Keys);
    var rows := DayRows(days, table, eventsByDay, offsetHours);
    DayRowsAt(days, table, eventsByDay, offsetHours);
    forall k | 0 <= k < |rows| ensures ClockAgrees(rows[k]) {
      RowClockAgrees(days[k], table[days[k]], eventsByDay, offsetHours);
    }
    ClockSpanSumsRows(rows);
    WorkedTimeIsExact(RowMinutes(rows));
  }

  /** Each row of a table built from intervals is dated on the entry day of one of them. */
  lemma RowsComeFromIntervals(clusters: seq<Interval>, eventsByDay: map<int, seq<string>>, offsetHours: int)
    ensures var table := DayTable(clusters);
      var rows := DayRows(SortedDays(table.Keys), table, eventsByDay, offsetHours);
      forall k :: 0 <= k < |rows| ==> rows[k].date.DayCell? && exists c :: c in clusters && EntryDay(c) == rows[k].date.day
  {
    RowsFollowSortedDays(DayTable(clusters), eventsByDay, offsetHours);
  }

  /** The entry day of every interval has a row. */
  lemma IntervalDaysHaveRows(clusters: seq<Interval>, eventsByDay: map<int, seq<string>>, offsetHours: int)
    ensures var table := DayTable(clusters);
      var rows := DayRows(SortedDays(table.Keys), table, eventsByDay, offsetHours);
      forall c :: c in clusters ==> exists k :: 0 <= k < |rows| && rows[k].date == DayCell(EntryDay(c))
  {
    var table := DayTable(clusters);
    RowsFollowSortedDays(table, eventsByDay, offsetHours);
    forall c | c in clusters
      ensures EntryDay(c) in table
    {
      assert EntryDay(c) in Days(clusters);
    }
  }

  /** The kept entry of a day is never after its kept exit when the intervals are in time order. */
  lemma KeptEntryBeforeKeptExit(clusters: seq<Interval>, day: int)
    requires Chronological(clusters)
    requires day in DayTable(clusters)
    ensures DayTable(clusters)[day].entry <= DayTable(clusters)[day].exit
  {
    var c :| c in clusters && EntryDay(c) == day;
    var i :| 0 <= i < |clusters| && clusters[i] == c;
    OverwriteKeepsLatestExit(clusters, day, i);
  }

  /** Intervals in time order give no row a negative worked time. */
  lemma ChronologicalWorkNonNegative(clusters: seq<Interval>, eventsByDay: map<int, seq<string>>, offsetHours: int)
    requires Chronological(clusters)
    ensures var table := DayTable(clusters);
      var rows := DayRows(SortedDays(table.Keys), table, eventsByDay, offsetHours);
      forall k :: 0 <= k < |rows| ==> rows[k].worked.hours >= 0 && rows[k].worked.minutes >= 0
  {
    var table := DayTable(clusters);
    var days := SortedDays(table.Keys);
    RowWorkedTimes(days, table, eventsByDay, offsetHours);
    forall k | 0 <= k < |days|
      ensures DayRows(days, table, eventsByDay, offsetHours)[k].worked.hours >= 0
      ensures DayRows(days, table, eventsByDay, offsetHours)[k].worked.minutes >= 0
    {
      KeptEntryBeforeKeptExit(clusters, days[k]);
    }
  }

  /** The offset moves the From and To clocks only: Date, Event and Work Duration do not depend on it. */
  lemma OffsetOnlyMovesClocks(days: seq<int>, table: map<int, DayTimes>, eventsByDay: map<int, seq<string>>,
                                                 offset1: int, offset2: int)
    requires forall d :: d in days ==> d in table
    ensures var rows1, rows2 := DayRows(days, table, eventsByDay, offset1), DayRows(days, table, eventsByDay, offset2);
      && |rows1| == |rows2| == |days|
      && forall k :: 0 <= k < |days| ==>
           rows1[k].date == rows2[k].date && rows1[k].event == rows2[k].event && rows1[k].worked == rows2[k].worked
  {
    DayRowsAt(days, table, eventsByDay, offset1);
    DayRowsAt(days, table, eventsByDay, offset2);
  }

  /** With no day rows the total is "00:00:00". */
  lemma EmptyTotalIsZero()
    ensures TotalWorked([]) == Duration(0, 0)
  {
  }

  /**
   * A day from 21:00 to 22:30 shown with a two-hour offset: the row says
   * 01:30, but its To (00:30) is before its From (23:00), so the summary
   * says -23:30 (minus 22 hours 30 minutes, floored).
   */
  lemma MidnightCrossingSkewsTotal()
    ensures var table := map[0 := DayTimes(21 * HOUR, 22 * HOUR + 30 * MINUTE)];
      var rows := DayRows(SortedDays(table.Keys), table, map[], 2);
      && rows == [Row(DayCell(0), "", Duration(1, 30), Some(23 * 3_600), Some(30 * 60))]
      && TotalWorked(rows) == Duration(-23, 30)
  {
    var table := map[0 := DayTimes(21 * HOUR, 22 * HOUR + 30 * MINUTE)];
    assert table.Keys == {0};
    AscendingOrderIsUnique(SortedDays(table.Keys), [0]);
    var row := Row(DayCell(0), "", Duration(1, 30), Some(23 * 3_600), Some(30 * 60));
    LateRowWrapsAround();
    assert DayRows([0], table, map[], 2) == DayRows([], table, map[], 2) + [row];
    assert ClockSpan([row]) == ClockSpan([]) + RowClockSpan(row);
    assert ClockSpan([row]) * SECOND == -22 * HOUR - 30 * MINUTE;
  }

  lemma LateRowWrapsAround()
    ensures DayRow(0, DayTimes(21 * HOUR, 22 * HOUR + 30 * MINUTE), map[], 2)
         == Row(DayCell(0), "", Duration(1, 30), Some(23 * 3_600), Some(30 * 60))
  {
    assert Lookup(map[], 0) == [];
    assert WallClock(23 * HOUR) == 23 * 3_600;
    assert WallClock(24 * HOUR + 30 * MINUTE) == 30 * 60;
    assert WorkedTime(HOUR + 30 * MINUTE) == Duration(1, 30);
  }

  /**
   * Two intervals on one day, 09:00-09:30 then 13:00-13:45: the day keeps
   * the first entry and the second exit; 09:30 is overwritten.
   */
  lemma SecondIntervalOverwritesExit()
    ensures DayTable([Interval(9 * HOUR, 9 * HOUR + 30 * MINUTE), Interval(13 * HOUR, 13 * HOUR + 45 * MINUTE)])
            == map[0 := DayTimes(9 * HOUR, 13 * HOUR + 45 * MINUTE)]
  {
    var first, second := Interval(9 * HOUR, 9 * HOUR + 30 * MINUTE), Interval(13 * HOUR, 13 * HOUR + 45 * MINUTE);
    MorningTable();
    assert OnGrid(second.entry) && OnGrid(second.exit);
    RoundingIsIdempotent(second.entry);
    RoundingIsIdempotent(second.exit);
    assert EntryDay(second) == 0;
    DayTableStep([first], second);
    assert [first] + [second] == [first, second];
    var after := DayTable([first, second]);
    assert after.Keys == {0};
    OneDayTable(after, 0, DayTimes(9 * HOUR, 13 * HOUR + 45 * MINUTE));
  }

  lemma OneDayTable(table: map<int, DayTimes>, day: int, times: DayTimes)
    requires table.Keys == {day} && table[day] == times
    ensures table == map[day := times]
  {
  }

  lemma MorningTable()
    ensures DayTable([Interval(9 * HOUR, 9 * HOUR + 30 * MINUTE)]) == map[0 := DayTimes(9 * HOUR, 9 * HOUR + 30 * MINUTE)]
  {
    var first := Interval(9 * HOUR, 9 * HOUR + 30 * MINUTE);
    assert OnGrid(first.entry) && OnGrid(first.exit);
    RoundingIsIdempotent(first.entry);
    RoundingIsIdempotent(first.exit);
    assert EntryDay(first) == 0;
    DayTableStep([], first);
    assert DayTable([]) == map[];
    assert [] + [first] == [first];
    assert DayTable([first]) == map[][0 := DayTimes(RoundToFiveMinutes(first.entry), RoundToFiveMinutes(first.exit))];
  }
}

=== FILE: instants.dfy ===
/**
 * Instants on a midnight-aligned time line.
 *
 * Every timestamp of the tracker is modelled as an integer number of
 * microseconds since 1970-01-01T00:00:00. Because the epoch is a midnight,
 * the calendar day of an instant is `t / DAY` and its time of day is
 * `t % DAY` (Dafny's division is Euclidean, which for a positive divisor is
 * the floor division that Python's datetime arithmetic performs).
 */
module Instants {

  const SECOND: int := 1_000_000
  const MINUTE: int := 60_000_000
  const HOUR: int := 3_600_000_000
  const DAY: int := 86_400_000_000

  /** `datetime.date()`: the number of the calendar day an instant falls on. */
  function DayOf(t: int): (d: int)
    ensures d * DAY <= t < d * DAY + DAY
  {
    t / DAY
  }

  /** `datetime.hour` */
  function HourOf(t: int): (h: int)
    ensures 0 <= h < 24
  {
    (t % DAY) / HOUR
  }

  /** `datetime.minute` */
  function MinuteOf(t: int): (m: int)
    ensures 0 <= m < 60
  {
    (t % HOUR) / MINUTE
  }

  /** `datetime.second` */
  function SecondOf(t: int): (s: int)
    ensures 0 <= s < 60
  {
    (t % MINUTE) / SECOND
  }

  /** `datetime.microsecond` */
  function MicrosecondOf(t: int): (u: int)
    ensures 0 <= u < SECOND
  {
    t % SECOND
  }

  /** The hour, minute, second and microsecond together are the time of day. */
  lemma TimeOfDayFields(t: int)
    ensures t % DAY == HourOf(t) * HOUR + MinuteOf(t) * MINUTE + SecondOf(t) * SECOND + MicrosecondOf(t)
  {
    var q := t % DAY;
    assert q == HOUR * (q / HOUR) + q % HOUR;
    QuotientIs(t, HOUR, t / HOUR);
    assert t % HOUR == q % HOUR by {
      QuotientIs(q, HOUR, q / HOUR);
      assert t == DAY * (t / DAY) + q;
      QuotientIs(t, HOUR, 24 * (t / DAY) + q / HOUR);
    }
    var m := t % HOUR;
    assert m == MINUTE * (m / MINUTE) + m % MINUTE;
    assert t % MINUTE == m % MINUTE by {
      assert t == HOUR * (t / HOUR) + m;
      QuotientIs(t, MINUTE, 60 * (t / HOUR) + m / MINUTE);
    }
    var s := t % MINUTE;
    assert s == SECOND * (s / SECOND) + s % SECOND;
    assert t % SECOND == s % SECOND by {
      assert t == MINUTE * (t / MINUTE) + s;
      QuotientIs(t, SECOND, 60 * (t / MINUTE) + s / SECOND);
    }
  }

  /**
   * The wall-clock time of an instant as whole seconds since midnight: what
   * rendering it with `%H:%M:%S` and parsing that text back yields.
   */
  function WallClock(t: int): (s: int)
    ensures 0 <= s < 86_400
    ensures s == HourOf(t) * 3_600 + MinuteOf(t) * 60 + SecondOf(t)
  {
    TimeOfDayFields(t);
    QuotientIs(t % DAY, SECOND, HourOf(t) * 3_600 + MinuteOf(t) * 60 + SecondOf(t));
    (t % DAY) / SECOND
  }

  /**
   * `apply_time_offset`: shift an instant by a whole number of hours. The
   * hour of day moves round the clock; minutes, seconds and microseconds stay.
   */
  function ApplyOffset(t: int, hours: int): (r: int)
    ensures HourOf(r) == (HourOf(t) + hours) % 24
    ensures MinuteOf(r) == MinuteOf(t) && SecondOf(r) == SecondOf(t) && MicrosecondOf(r) == MicrosecondOf(t)
  {
    OffsetMovesHour(t, hours);
    t + hours * HOUR
  }

  lemma OffsetMovesHour(t: int, hours: int)
    ensures HourOf(t + hours * HOUR) == (HourOf(t) + hours) % 24
    ensures (t + hours * HOUR) % HOUR == t % HOUR
    ensures (t + hours * HOUR) % MINUTE == t % MINUTE
    ensures (t + hours * HOUR) % SECOND == t % SECOND
  {
    var r := t + hours * HOUR;
    var dt, h, q := t / DAY, HourOf(t), (t % DAY) % HOUR;
    assert t == DAY * dt + HOUR * h + q;
    var m, h' := (h + hours) / 24, (h + hours) % 24;
    assert r == DAY * (dt + m) + HOUR * h' + q;
    QuotientIs(r, DAY, dt + m);
    assert r % DAY == HOUR * h' + q;
    QuotientIs(r % DAY, HOUR, h');
    QuotientIs(r, HOUR, t / HOUR + hours);
    QuotientIs(r, MINUTE, t / MINUTE + 60 * hours);
    QuotientIs(r, SECOND, t / SECOND + 3_600 * hours);
  }

  /** The quotient of `x` by `d` is the `q` whose multiple brackets `x`. */
  lemma QuotientIs(x: int, d: int, q: int)
    requires d > 0 && d * q <= x < d * q + d
    ensures x / d == q
  {
    var a := x / d;
    assert x == d * a + x % d;
    if a > q {
      ProductGrows(d, q + 1, a);
    } else if a < q {
      ProductGrows(d, a + 1, q);
    }
  }

  lemma ProductGrows(d: int, a: int, b: int)
    requires d > 0 && a <= b
    ensures d * a <= d * b
  {
    assert d * b - d * a == d * (b - a);
  }

  /** Shifting both ends of a span by the same offset leaves its length alone, and shifting back undoes it. */
  lemma OffsetPreservesSpans(a: int, b: int, hours: int)
    ensures ApplyOffset(b, hours) - ApplyOffset(a, hours) == b - a
    ensures ApplyOffset(ApplyOffset(a, hours), -hours) == a
  {
  }

  /**
   * Two whole-second instants on the same calendar day: the difference of
   * their wall-clock readings is the true difference between them.
   */
  lemma WallClockDifference(a: int, b: int)
    requires DayOf(a) == DayOf(b)
    requires a % SECOND == 0 && b % SECOND == 0
    ensures (WallClock(b) - WallClock(a)) * SECOND == b - a
  {
    var d := DayOf(a);
    var ra, rb := a % DAY, b % DAY;
    assert a == d * DAY + ra;
    assert b == d * DAY + rb;
    assert ra == a - d * DAY;
    assert rb == b - d * DAY;
    assert ra % SECOND == 0 by {
      assert ra == SECOND * (a / SECOND - d * 86_400);
    }
    assert rb % SECOND == 0 by {
      assert rb == SECOND * (b / SECOND - d * 86_400);
    }
    assert WallClock(a) * SECOND == ra;
    assert WallClock(b) * SECOND == rb;
  }

  datatype Date = Date(year: int, month: int, day: int)

  /**
   * The proleptic Gregorian date of a day number (day 0 is 1970-01-01), as
   * Python's `date` computes it; the era-based conversion of civil calendars.
   */
  function CivilDate(days: int): (r: Date)
    ensures 1 <= r.month <= 12 && 1 <= r.day <= 31
  {
    var z := days + 719_468;
    var era := z / 146_097;
    var doe := z - era * 146_097;
    DayOfEraBounds(doe);
    var yoe := (doe - doe / 1_460 + doe / 36_524 - doe / 146_096) / 365;
    var doy := doe - (365 * yoe + yoe / 4 - yoe / 100);
    var mp := (5 * doy + 2) / 153;
    var d := doy - (153 * mp + 2) / 5 + 1;
    var m := if mp < 10 then mp + 3 else mp - 9;
    var y := yoe + era * 400;
    Date(if m <= 2 then y + 1 else y, m, d)
  }

  /**
   * Within a 400-year era of 146097 days, the year of the era and the
   * (March-based) day of that year stay in range.
   */
  lemma DayOfEraBounds(doe: int)
    requires 0 <= doe <= 146_096
    ensures var yoe := (doe - doe / 1_460 + doe / 36_524 - doe / 146_096) / 365;
      var doy := doe - (365 * yoe + yoe / 4 - yoe / 100);
      0 <= yoe < 400 && 0 <= doy <= 365 && 0 <= (5 * doy + 2) / 153 < 12
  {
    if doe < 146_096 {
      var c := doe / 36_524;
      var g := (doe - 36_524 * c) / 1_461;
      DayOfBlockBounds(doe, c, g, doe - 36_524 * c - 1_461 * g);
    } else {
      QuotientIs(doe, 1_460, 100);
      QuotientIs(doe - doe / 1_460 + doe / 36_524 - doe / 146_096, 365, 399);
    }
  }

  /**
   * Day `r` of four-year block `g` of century `c`: the year of the era is
   * 100c + 4g plus the whole years elapsed in the block, so the day of that
   * year is at most 365.
   */
  lemma DayOfBlockBounds(doe: int, c: int, g: int, r: int)
    requires 0 <= c < 4 && 0 <= g && 0 <= r < 1_461 && 1_461 * g + r < 36_524
    requires doe == 36_524 * c + 1_461 * g + r
    ensures var yoe := (doe - doe / 1_460 + doe / 36_524 - doe / 146_096) / 365;
      var doy := doe - (365 * yoe + yoe / 4 - yoe / 100);
      0 <= yoe < 400 && 0 <= doy <= 365
  {
    var k := (24 * c + g + r) / 1_460;
    QuotientIs(doe, 1_460, 25 * c + g + k);
    QuotientIs(doe, 36_524, c);
    QuotientIs(doe, 146_096, 0);
    var y := (r - k) / 365;
    var yoe := 100 * c + 4 * g + y;
    QuotientIs(doe - doe / 1_460 + doe / 36_524 - doe / 146_096, 365, yoe);
    QuotientIs(yoe, 4, 25 * c + g);
    QuotientIs(yoe, 100, c);
  }

  /** `dt.year == year and dt.month == month`: the instant falls in the given calendar month. */
  predicate InMonth(t: int, year: int, month: int)
    ensures InMonth(t, year, month) ==> 1 <= month <= 12
  {
    var date := CivilDate(DayOf(t));
    date.year == year && date.month == month
  }

  /** The conversion puts day 0 on 1 January 1970. */
  lemma EpochIsNewYear()
    ensures CivilDate(0) == Date(1970, 1, 1)
  {
    assert 719_468 / 146_097 == 4;
    assert 135_080 / 1_460 == 92 && 135_080 / 36_524 == 3 && 135_080 / 146_096 == 0;
    assert 134_991 / 365 == 369;
    assert 1_532 / 153 == 10 && 1_532 / 5 == 306;
  }

  /** Day 19782 is the leap day of 2024. */
  lemma LeapDayOf2024()
    ensures CivilDate(19_782) == Date(2024, 2, 29)
  {
    assert 739_250 / 146_097 == 5;
    assert 8_765 / 1_460 == 6 && 8_765 / 36_524 == 0 && 8_765 / 146_096 == 0;
    assert 8_759 / 365 == 23;
    assert 1_827 / 153 == 11 && 1_685 / 5 == 337;
  }
}

=== FILE: rounding.dfy ===
/**
 * `round_to_nearest_5_minutes`: snapping an instant to the 5-minute grid,
 * with ties (a remainder of exactly 2 minutes 30 seconds) going up.
 */
module Rounding {
  import opened Instants

  const FIVE_MINUTES: int := 300_000_000
  /** `timedelta(minutes=2.5)` */
  const HALF_STEP: int := 150_000_000

  predicate OnGrid(t: int)
  {
    t % FIVE_MINUTES == 0
  }

  /**
   * What the source discards: `minute % 5` minutes plus the seconds plus the
   * microseconds of the instant.
   */
  function Discard(t: int): (r: int)
    ensures 0 <= r < FIVE_MINUTES
  {
    (MinuteOf(t) % 5) * MINUTE + SecondOf(t) * SECOND + MicrosecondOf(t)
  }

  /** Whole hours are whole minutes, so the minute remainder is taken within the hour. */
  lemma MinuteRemainderWithinHour(t: int)
    ensures t % MINUTE == (t % HOUR) % MINUTE
  {
    var a, h := t / HOUR, t % HOUR;
    var mi, s := h / MINUTE, h % MINUTE;
    assert t == MINUTE * (60 * a + mi) + s;
  }

  /** Whole minutes are whole seconds, so the second remainder is taken within the minute. */
  lemma SecondRemainderWithinMinute(t: int)
    ensures t % SECOND == (t % MINUTE) % SECOND
  {
    var a, m := t / MINUTE, t % MINUTE;
    var se, u := m / SECOND, m % SECOND;
    assert t == SECOND * (60 * a + se) + u;
  }

  /** Whole hours are whole five-minute steps. */
  lemma FiveMinuteRemainderWithinHour(t: int)
    ensures t % FIVE_MINUTES == (t % HOUR) % FIVE_MINUTES
  {
    var a, h := t / HOUR, t % HOUR;
    var b, c := h / FIVE_MINUTES, h % FIVE_MINUTES;
    assert t == FIVE_MINUTES * (12 * a + b) + c;
  }

  /** Within the hour, the five-minute remainder is the minutes past the step plus the minute remainder. */
  lemma FiveMinuteRemainderOfHour(h: int)
    requires 0 <= h < HOUR
    ensures h % FIVE_MINUTES == ((h / MINUTE) % 5) * MINUTE + h % MINUTE
  {
    var mi, s := h / MINUTE, h % MINUTE;
    var b, c := mi / 5, mi % 5;
    assert h == FIVE_MINUTES * b + (c * MINUTE + s);
  }

  /** The discarded part is exactly the remainder of the instant modulo five minutes. */
  lemma DiscardIsRemainder(t: int)
    ensures Discard(t) == t % FIVE_MINUTES
  {
    var m := t % MINUTE;
    assert SecondOf(t) * SECOND + m % SECOND == m;
    SecondRemainderWithinMinute(t);
    MinuteRemainderWithinHour(t);
    FiveMinuteRemainderWithinHour(t);
    FiveMinuteRemainderOfHour(t % HOUR);
  }

  /** On the grid means a minute divisible by five and no seconds or microseconds. */
  lemma GridMeansWholeFiveMinutes(t: int)
    ensures OnGrid(t) <==> MinuteOf(t) % 5 == 0 && SecondOf(t) == 0 && MicrosecondOf(t) == 0
  {
    DiscardIsRemainder(t);
    assert 0 <= (MinuteOf(t) % 5) * MINUTE && 0 <= SecondOf(t) * SECOND;
  }

  /** The instant less its remainder, and the grid point after that, are on the grid. */
  lemma GridPointsAround(t: int)
    ensures OnGrid(t - t % FIVE_MINUTES) && OnGrid(t - t % FIVE_MINUTES + FIVE_MINUTES)
  {
    var q := t / FIVE_MINUTES;
    assert t - t % FIVE_MINUTES == FIVE_MINUTES * q;
    assert t - t % FIVE_MINUTES + FIVE_MINUTES == FIVE_MINUTES * (q + 1);
  }

  /**
   * The nearest grid point, ties going up: the result lies on the grid in
   * the half-open window (t - 2:30, t + 2:30], and it is later than `t`
   * exactly when the discarded remainder is at least 2:30.
   */
  function RoundToFiveMinutes(t: int): (r: int)
    ensures OnGrid(r)
    ensures t - HALF_STEP < r <= t + HALF_STEP
    ensures r > t <==> t % FIVE_MINUTES >= HALF_STEP
  {
    DiscardIsRemainder(t);
    GridPointsAround(t);
    var discard := Discard(t);
    var down := t - discard;
    if discard >= HALF_STEP then down + FIVE_MINUTES else down
  }

  /** Two grid points closer together than five minutes are the same point. */
  lemma GridPointsApart(g: int, h: int)
    requires OnGrid(g) && OnGrid(h)
    requires g < h
    ensures h - g >= FIVE_MINUTES
  {
    var kg, kh := g / FIVE_MINUTES, h / FIVE_MINUTES;
    assert g == FIVE_MINUTES * kg;
    assert h == FIVE_MINUTES * kh;
    assert kg < kh;
  }

  /**
   * The window characterises the result: any grid point in
   * (t - 2:30, t + 2:30] is the rounded instant.
   */
  lemma RoundingIsUnique(t: int, g: int)
    requires OnGrid(g)
    requires t - HALF_STEP < g <= t + HALF_STEP
    ensures g == RoundToFiveMinutes(t)
  {
    var r := RoundToFiveMinutes(t);
    if g < r {
      GridPointsApart(g, r);
    } else if r < g {
      GridPointsApart(r, g);
    }
  }

  /** Instants already on the grid are fixed points, so rounding is idempotent. */
  lemma RoundingIsIdempotent(t: int)
    ensures RoundToFiveMinutes(RoundToFiveMinutes(t)) == RoundToFiveMinutes(t)
    ensures OnGrid(t) ==> RoundToFiveMinutes(t) == t
  {
    var r := RoundToFiveMinutes(t);
    RoundingIsUnique(r, r);
    if OnGrid(t) {
      RoundingIsUnique(t, t);
    }
  }

  /** Exactly 2:30 past a grid point rounds up; 2:29 past it rounds down. */
  lemma RoundingBoundary(g: int)
    requires OnGrid(g)
    ensures RoundToFiveMinutes(g + HALF_STEP) == g + FIVE_MINUTES
    ensures RoundToFiveMinutes(g + HALF_STEP - SECOND) == g
  {
    assert OnGrid(g + FIVE_MINUTES) by {
      assert g + FIVE_MINUTES == FIVE_MINUTES * (g / FIVE_MINUTES + 1);
    }
    RoundingIsUnique(g + HALF_STEP, g + FIVE_MINUTES);
    RoundingIsUnique(g + HALF_STEP - SECOND, g);
  }

  /** Rounding never reverses the order of two instants. */
  lemma RoundingIsMonotone(a: int, b: int)
    requires a <= b
    ensures RoundToFiveMinutes(a) <= RoundToFiveMinutes(b)
  {
    var ra, rb := RoundToFiveMinutes(a), RoundToFiveMinutes(b);
    if rb < ra {
      GridPointsApart(rb, ra);
    }
  }

  /** A grid point shifted by whole hours is a whole second. */
  lemma GridIsWholeSeconds(g: int, hours: int)
    requires OnGrid(g)
    ensures ApplyOffset(g, hours) % SECOND == 0
  {
    var n := 300 * (g / FIVE_MINUTES) + 3_600 * hours;
    assert g == FIVE_MINUTES * (g / FIVE_MINUTES);
    assert ApplyOffset(g, hours) == SECOND * n;
    assert (SECOND * n) / SECOND == n;
  }

  /** Two grid points lie a whole number of five-minute steps apart. */
  lemma GridSpanInMinutes(g: int, h: int)
    requires OnGrid(g) && OnGrid(h)
    ensures h - g == (5 * (h / FIVE_MINUTES - g / FIVE_MINUTES)) * MINUTE
  {
    assert g == FIVE_MINUTES * (g / FIVE_MINUTES);
    assert h == FIVE_MINUTES * (h / FIVE_MINUTES);
  }

  /** A whole-hour offset keeps a grid point on the grid. */
  lemma OffsetKeepsGrid(g: int, hours: int)
    requires OnGrid(g)
    ensures OnGrid(ApplyOffset(g, hours))
  {
    var k := g / FIVE_MINUTES;
    assert g == FIVE_MINUTES * k;
    assert ApplyOffset(g, hours) == FIVE_MINUTES * (k + 12 * hours);
  }

  /**
   * Rounding and a whole-hour offset commute, so shifting the rounded
   * instants keeps them on the grid.
   */
  lemma RoundingCommutesWithOffset(t: int, hours: int)
    ensures RoundToFiveMinutes(ApplyOffset(t, hours)) == ApplyOffset(RoundToFiveMinutes(t), hours)
    ensures OnGrid(ApplyOffset(RoundToFiveMinutes(t), hours))
  {
    var r := RoundToFiveMinutes(t);
    OffsetKeepsGrid(r, hours);
    RoundingIsUnique(ApplyOffset(t, hours), ApplyOffset(r, hours));
  }
}

=== FILE: work_log.dfy ===
/**
 * `analyze_location_and_calendar` after its inputs are parsed: the month
 * filter of `filter_csv`, cluster detection, the event index, the two
 * aggregation loops and the summary row, composed into the rows of the
 * work-hours table.
 */
module WorkLog {
  import opened Wrappers
  import opened Instants
  import opened ClusterDetector
  import opened CalendarIndex
  import opened DayAggregator

  /** `filter_csv`: the fixes dated in the target month and year, in input order. */
  function MonthFixes(points: seq<Fix>, year: int, month: int): (r: seq<Fix>)
    ensures |r| <= |points|
    ensures forall k :: 0 <= k < |r| ==> r[k] in points
    decreases |points|
  {
    if points == [] then []
    else
      var prefix, last := points[..|points| - 1], points[|points| - 1];
      var rest := MonthFixes(prefix, year, month);
      assert forall k :: 0 <= k < |rest| ==> rest[k] in points;
      if InMonth(last.time, year, month) then rest + [last] else rest
  }

  /** A fix survives the filter exactly when it is one of the input fixes and is dated in the month. */
  lemma {:induction false} MonthFixesSelects(points: seq<Fix>, year: int, month: int)
    ensures forall p :: p in MonthFixes(points, year, month) <==> p in points && InMonth(p.time, year, month)
    decreases |points|
  {
    if points != [] {
      var prefix, last := points[..|points| - 1], points[|points| - 1];
      assert points == prefix + [last];
      MonthFixesSelects(prefix, year, month);
    }
  }

  /** Filtering keeps time order: sorted fixes stay sorted. */
  lemma {:induction false} MonthFixesStaySorted(points: seq<Fix>, year: int, month: int)
    requires Sorted(points)
    ensures Sorted(MonthFixes(points, year, month))
    decreases |points|
  {
    if points != [] {
      var prefix, last := points[..|points| - 1], points[|points| - 1];
      assert Sorted(prefix);
      MonthFixesStaySorted(prefix, year, month);
      var rest := MonthFixes(prefix, year, month);
      var r := MonthFixes(points, year, month);
      if r != rest {
        assert r == rest + [last];
        forall a, b | 0 <= a < b < |r| ensures r[a].time <= r[b].time {
          if b < |rest| {
            assert r[a] == rest[a] && r[b] == rest[b];
          } else {
            assert r[a] in prefix;
            var k :| 0 <= k < |prefix| && prefix[k] == r[a];
            assert points[k] == r[a];
          }
        }
      }
    }
  }

  /** The presence intervals of the month, as `detect_clusters` returns them. */
  function MonthClusters(points: seq<Fix>, inRadius: (real, real) -> bool, year: int, month: int, minDuration: int): (r: seq<Interval>)
    ensures 2 * |r| <= |points|
    ensures forall k :: 0 <= k < |r| ==>
              r[k].exit - r[k].entry >= minDuration && InMonth(r[k].entry, year, month) && InMonth(r[k].exit, year, month)
  {
    ClustersStayInMonth(points, inRadius, year, month, minDuration);
    Clusters(MonthFixes(points, year, month), inRadius, minDuration)
  }

  /** Both ends of every interval are times of fixes that survived the month filter. */
  lemma ClustersStayInMonth(points: seq<Fix>, inRadius: (real, real) -> bool, year: int, month: int, minDuration: int)
    ensures var cs := Clusters(MonthFixes(points, year, month), inRadius, minDuration);
      forall c :: c in cs ==> InMonth(c.entry, year, month) && InMonth(c.exit, year, month)
  {
    var fixes := MonthFixes(points, year, month);
    MonthFixesSelects(points, year, month);
    forall c | c in Clusters(fixes, inRadius, minDuration)
      ensures InMonth(c.entry, year, month) && InMonth(c.exit, year, month)
    {
      EmittedIntervalsAreClosedRuns(fixes, inRadius, minDuration, c);
      var i, j :| ClosedRun(fixes, inRadius, c, i, j);
      assert fixes[i] in fixes && fixes[j] in fixes;
    }
  }

  /**
   * The day rows built from presence intervals: `entry_exit_by_day` of the
   * intervals, its days in ascending order, each with the month's events.
   */
  function DayRowsOf(clusters: seq<Interval>, events: seq<Event>, year: int, month: int, offsetHours: int): (r: seq<Row>)
    ensures |r| == |Days(clusters)|
    ensures forall k :: 0 <= k < |r| ==> r[k].date.DayCell? && r[k].date.day in Days(clusters)
    ensures forall a, b :: 0 <= a < b < |r| ==> r[a].date.day < r[b].date.day
  {
    var table := DayTable(clusters);
    RowsFollowSortedDays(table, EventIndex(events, year, month), offsetHours);
    DayRows(SortedDays(table.Keys), table, EventIndex(events, year, month), offsetHours)
  }

  /**
   * The rows written to the output file: the day rows, each with both clock
   * cells filled, then the summary row totalling exactly those rows.
   */
  function Report(points: seq<Fix>, events: seq<Event>, inRadius: (real, real) -> bool, year: int, month: int,
                  offsetHours: int, minDuration: int, lang: Language): (r: seq<Row>)
    ensures |r| >= 1 && r[|r| - 1] == SummaryRow(lang, r[..|r| - 1])
    ensures forall k :: 0 <= k < |r| - 1 ==> r[k].date.DayCell? && r[k].from.Some? && r[k].to.Some?
  {
    var clusters := MonthClusters(points, inRadius, year, month, minDuration);
    var rows := DayRowsOf(clusters, events, year, month, offsetHours);
    DayRowsFilled(clusters, events, year, month, offsetHours);
    AppendSummary(rows, lang);
    var r := rows + [SummaryRow(lang, rows)];
    r
  }

  /** Every day row is dated on a day and has both clock cells filled. */
  lemma DayRowsFilled(clusters: seq<Interval>, events: seq<Event>, year: int, month: int, offsetHours: int)
    ensures var rows := DayRowsOf(clusters, events, year, month, offsetHours);
      forall k :: 0 <= k < |rows| ==> rows[k].date.DayCell? && rows[k].from.Some? && rows[k].to.Some?
  {
    var table, index := DayTable(clusters), EventIndex(events, year, month);
    var days := SortedDays(table.Keys);
    var rows := DayRows(days, table, index, offsetHours);
    assert rows == DayRowsOf(clusters, events, year, month, offsetHours);
    DayRowsAt(days, table, index, offsetHours);
    forall k | 0 <= k < |rows|
      ensures rows[k].date.DayCell? && rows[k].from.Some? && rows[k].to.Some?
    {
      assert rows[k] == DayRow(days[k], table[days[k]], index, offsetHours);
    }
  }

  /** Filled day rows followed by their summary row make a table of the promised shape. */
  lemma AppendSummary(rows: seq<Row>, lang: Language)
    requires forall k :: 0 <= k < |rows| ==> rows[k].date.DayCell? && rows[k].from.Some? && rows[k].to.Some?
    ensures var r := rows + [SummaryRow(lang, rows)];
      && |r| >= 1 && r[|r| - 1] == SummaryRow(lang, r[..|r| - 1])
      && forall k :: 0 <= k < |r| - 1 ==> r[k].date.DayCell? && r[k].from.Some? && r[k].to.Some?
  {
    var r := rows + [SummaryRow(lang, rows)];
    assert r[..|r| - 1] == rows;
  }

  /**
   * `analyze_location_and_calendar` from the parsed fixes and calendar
   * events to the rows of the output table, with the geodesic radius test
   * as `inRadius` and the minimum cluster time in microseconds.
   */
  method AnalyzeLocationAndCalendar(points: seq<Fix>, events: seq<Event>, inRadius: (real, real) -> bool,
                                    filterYear: int, filterMonth: int, timeOffsetHours: int, minDuration: int,
                                    lang: Language)
    returns (workHours: seq<Row>)
    ensures workHours == Report(points, events, inRadius, filterYear, filterMonth, timeOffsetHours, minDuration, lang)
  {
    var df := MonthFixes(points, filterYear, filterMonth);
    var clusters := DetectClusters(df, inRadius, minDuration);
    var eventsByDay := LoadEvents(events, filterMonth, filterYear);
    var entryExitByDay := GroupByDay(clusters);
    var entryExitPairs := BuildRows(entryExitByDay, eventsByDay, timeOffsetHours);
    workHours := entryExitPairs + [SummaryRow(lang, entryExitPairs)];
  }

  /** The Event cell of a day row: the day's marked events of the month, in calendar order, one per line. */
  lemma EventsOfTheDay(clusters: seq<Interval>, events: seq<Event>, year: int, month: int, offsetHours: int)
    ensures var rows := DayRowsOf(clusters, events, year, month, offsetHours);
      forall k :: 0 <= k < |rows| ==>
        rows[k].date.DayCell? && rows[k].event == JoinLines(DayDescriptions(events, year, month, rows[k].date.day))
  {
    var table := DayTable(clusters);
    var index := EventIndex(events, year, month);
    var days := SortedDays(table.Keys);
    var rows := DayRows(days, table, index, offsetHours);
    RowEvents(days, table, index, offsetHours);
    forall k | 0 <= k < |rows|
      ensures rows[k].date.DayCell? && rows[k].event == JoinLines(DayDescriptions(events, year, month, rows[k].date.day))
    {
      IndexLookup(events, year, month, days[k]);
    }
  }

  /** The English and the Polish script write the same table except for the summary label. */
  lemma LanguagesDifferOnlyInLabel(points: seq<Fix>, events: seq<Event>, inRadius: (real, real) -> bool,
                                                      year: int, month: int, offsetHours: int, minDuration: int)
    ensures var en := Report(points, events, inRadius, year, month, offsetHours, minDuration, English);
      var pl := Report(points, events, inRadius, year, month, offsetHours, minDuration, Polish);
      && |en| == |pl|
      && en[..|en| - 1] == pl[..|pl| - 1]
      && en[|en| - 1] == pl[|pl| - 1].(date := LabelCell("Total"))
      && pl[|pl| - 1].date == LabelCell("Suma")
  {
    var rows := DayRowsOf(MonthClusters(points, inRadius, year, month, minDuration), events, year, month, offsetHours);
    SummariesDifferOnlyInLabel(rows);
  }

  lemma SummariesDifferOnlyInLabel(rows: seq<Row>)
    ensures var en, pl := rows + [SummaryRow(English, rows)], rows + [SummaryRow(Polish, rows)];
      && |en| == |pl|
      && en[..|en| - 1] == pl[..|pl| - 1]
      && en[|en| - 1] == pl[|pl| - 1].(date := LabelCell("Total"))
      && pl[|pl| - 1].date == LabelCell("Suma")
  {
    var en, pl := rows + [SummaryRow(English, rows)], rows + [SummaryRow(Polish, rows)];
    assert en[..|en| - 1] == rows == pl[..|pl| - 1];
  }

  /**
   * A month without a presence interval (no fix of the month in the
   * radius, or every stay shorter than the minimum) gives a table holding
   * only a zero summary row, whatever the calendar says.
   */
  lemma EmptyMonthReport(points: seq<Fix>, events: seq<Event>, inRadius: (real, real) -> bool,
                                            year: int, month: int, offsetHours: int, minDuration: int, lang: Language)
    requires MonthClusters(points, inRadius, year, month, minDuration) == []
    ensures Report(points, events, inRadius, year, month, offsetHours, minDuration, lang)
            == [Row(LabelCell(SummaryLabel(lang)), "", Duration(0, 0), None, None)]
  {
    var clusters := MonthClusters(points, inRadius, year, month, minDuration);
    assert DayTable(clusters) == map[] by {
      assert Days(clusters) == {};
    }
    var rows := DayRowsOf(clusters, events, year, month, offsetHours);
    assert rows == [];
    assert TotalWorked(rows) == Duration(0, 0);
  }

  /** In particular, a month without a single fix gives only a zero summary row. */
  lemma NoFixInMonthReport(points: seq<Fix>, events: seq<Event>, inRadius: (real, real) -> bool,
                                              year: int, month: int, offsetHours: int, minDuration: int, lang: Language)
    requires forall k :: 0 <= k < |points| ==> !InMonth(points[k].time, year, month)
    ensures Report(points, events, inRadius, year, month, offsetHours, minDuration, lang)
            == [Row(LabelCell(SummaryLabel(lang)), "", Duration(0, 0), None, None)]
  {
    NothingDatedInMonth(points, year, month);
    assert MonthClusters(points, inRadius, year, month, minDuration) == [];
    EmptyMonthReport(points, events, inRadius, year, month, offsetHours, minDuration, lang);
  }

  lemma {:induction false} NothingDatedInMonth(points: seq<Fix>, year: int, month: int)
    requires forall k :: 0 <= k < |points| ==> !InMonth(points[k].time, year, month)
    ensures MonthFixes(points, year, month) == []
    decreases |points|
  {
    if points != [] {
      var prefix := points[..|points| - 1];
      assert forall k :: 0 <= k < |prefix| ==> prefix[k] == points[k];
      NothingDatedInMonth(prefix, year, month);
    }
  }

  /**
   * On time-sorted fixes the month's presence intervals are in time order,
   * so no day row has a negative worked time.
   */
  lemma SortedFixesGiveChronologicalClusters(points: seq<Fix>, inRadius: (real, real) -> bool,
                                                                year: int, month: int, minDuration: int)
    requires Sorted(points)
    ensures Chronological(MonthClusters(points, inRadius, year, month, minDuration))
  {
    MonthFixesStaySorted(points, year, month);
    ClustersAreChronological(MonthFixes(points, year, month), inRadius, minDuration);
  }
}

=== FILE: wrappers.dfy ===
/** The optional value used for "no end time" and "no in-radius time seen yet". */
module Wrappers {
  datatype Option<+T> = None | Some(value: T)
}
